=== FILE: README.md ===
# cursed-calendar — a Dafny model of the booking calendar core

The calendar shows one row per employee and one column per day. Existing time
slots are drawn as bars. The user books a new slot in three moves:

1. Press on a cell, drag along the same row, and release. The reservation
   dialog opens with the earliest and latest touched day.
2. Type a project name and pick a status.
3. Submit. The new slot gets status `completed` when it overlaps another slot
   of the same employee.

This project models that core as pure functions over immutable states:

- `CalendarWidget`: the selection and reservation state machine. It covers
  mouse down, over and up, the "Reserve" button, submit with the overlap rule,
  closing the dialog, and the sidebar click. It also holds the employee filter.
- `CalendarWheel`: the three wheel handlers that route wheel deltas to the
  scrolling pane.
- `CalendarGrid`: grouping of slots by employee, bar placement (`findIndex`,
  width, left offset), cell highlighting and grid width.
- `CalendarHeader`: grouping of the date axis into month and week bands. It is
  written once, generic over the key.
- `Select`: the multi-select toggle and the option filter.
- `SearchInput`: the suggestion filter and dropdown visibility.
- `ReservationModal`: the dialog. It resets the form on open, refuses a blank
  project name, and renders nothing when closed.

`Seqs`, `Text`, `Types` and `Wrappers` hold the shared pieces:
- `Array.prototype.filter` / `findIndex` / sort;
- `toLowerCase` / `includes` / `trim`;
- the entity records;
- `Option` for JavaScript's `null` / `undefined`.

Days are integers (a day number on a continuous axis). The visible axis
`dates` is a sequence of days. The cell size `CELL_SIZE` is a parameter.

Behaviour that is easy to misread, modelled as the code has it:

- **Container wheel.** It calls `preventDefault()` exactly when the wheel
  pushes past an edge that is already reached, or when the scroll container is
  missing. Inside the scroll range it does not call it.
- **Header wheel, vertical-only event.** With no Shift and no horizontal delta,
  the header moves the grid both horizontally (by `2·deltaY`) and vertically
  (by `deltaY`).
- **Mouse-over.** The handler compares the hovered row with `selectedEmployee`,
  not with the employee of the current selection. Evaluated on the current
  state, a sidebar click during a drag lets another row's columns join the
  selection under the first row's employee; `CalendarWidget.SidebarClickMixesRows`
  exhibits this. Every event except the sidebar click keeps the drag on one row
  (`CalendarWidget.DragCoherentUnlessSidebar`). In the running program a row is
  memoised on its employee, its virtual index, its bucket and `isCellSelected`
  (src/widgets/calendar/CalendarGrid.tsx:206-214). A row rendered before the
  click therefore still calls a handler that sees the old `selectedEmployee`
  and ignores the hover. Only a row rendered after the click, for instance one
  scrolled into view, mixes rows.
- **The "Reserve" button.** It commits the selection like mouse-up but does
  not end the drag.
- **Submit guard.** An empty `employeeId` is falsy, so submit with it is a
  no-op.
- **Selected column outside the axis.** If a selected column index lies
  outside the axis, `dates[i]` is `undefined` and the model carries `None`.

## Model

| member | source | states |
|---|---|---|
| Types.SlotsOf | src/widgets/calendar/CalendarWidget.tsx:164-166 | the slots of one employee are a subsequence of all slots, and each slot occurs in it exactly as often as in the input when it carries that employee id and not at all otherwise |
| Types.SlotsOfSnoc | src/widgets/calendar/CalendarGrid.tsx:231-236 | appending a slot extends its own employee's list by that slot and leaves every other employee's list unchanged |
| CalendarWidget.FilterEmployees | src/widgets/calendar/CalendarWidget.tsx:67-87 | the kept employees are a subsequence of the input in which an employee occurs as often as in the input iff (no activity filter or one of its activities is selected) and (no name filter or its name is selected), and not at all otherwise |
| CalendarWidget.NoFilterKeepsEveryone | src/widgets/calendar/CalendarWidget.tsx:70-85 | with both filters empty every employee is listed, in order |
| CalendarWidget.SelectedEmployeeName | src/widgets/calendar/CalendarWidget.tsx:213-215 | a name is reported only for a non-empty id, and it is the non-empty name of the first employee carrying that id; no name means no id, an empty id, no employee with it, or an empty name on the first one |
| CalendarWidget.Init | src/widgets/calendar/CalendarWidget.tsx:38-59 | the widget starts with no selection, no drag, no selected employee, the dialog closed, reservation data with no start, end or employee, and the initial slots |
| CalendarWidget.MouseDown | src/widgets/calendar/CalendarWidget.tsx:90-97 | pressing starts a drag on that row with exactly the pressed column selected; dialog state and slots are untouched |
| CalendarWidget.MouseOver | src/widgets/calendar/CalendarWidget.tsx:118-134 | outside a live drag on the selected employee's row nothing changes; otherwise only the selection changes, it keeps its employee, the old columns stay a prefix, the hovered column is added once, and a duplicate-free selection stays duplicate-free |
| CalendarWidget.Least | src/widgets/calendar/CalendarWidget.tsx:104-105 | the first element after an ascending numeric sort is a member no larger than any selected column |
| CalendarWidget.Greatest | src/widgets/calendar/CalendarWidget.tsx:104-106 | the last element after an ascending numeric sort is a member no smaller than any selected column |
| CalendarWidget.CommitRange | src/widgets/calendar/CalendarWidget.tsx:104-106 | sorting the touched columns and taking both ends yields the days at the least and the greatest touched column (or `undefined` past the axis) |
| CalendarWidget.CommitRangeIgnoresOrder | src/widgets/calendar/CalendarWidget.tsx:104-106 | the committed period depends only on which columns were touched, not on the drag order |
| CalendarWidget.CommitCoversTouchedColumns | src/widgets/calendar/CalendarWidget.tsx:104-106 | on an ascending axis every touched day lies between the committed start and end days |
| CalendarWidget.Committed | src/widgets/calendar/CalendarWidget.tsx:108-112 | the reservation carries the selection's employee and its least and greatest touched days |
| CalendarWidget.MouseUp | src/widgets/calendar/CalendarWidget.tsx:99-116 | releasing always ends the drag; with a non-empty selection it opens the dialog with the committed period, and otherwise nothing else changes |
| CalendarWidget.Reserve | src/widgets/calendar/CalendarWidget.tsx:193-210 | the button opens the dialog iff something is selected, with the committed period, changing nothing else; otherwise it only alerts |
| CalendarWidget.ReserveAgreesWithMouseUp | src/widgets/calendar/CalendarWidget.tsx:99-116 | with a selection, the button and mouse-up commit the same reservation and differ only in ending the drag |
| CalendarWidget.Close | src/widgets/calendar/CalendarWidget.tsx:475-478 | closing the dialog drops the selection and keeps slots, reservation data and drag flags |
| CalendarWidget.SidebarClick | src/widgets/calendar/CalendarWidget.tsx:430 | a sidebar click changes only the selected employee |
| CalendarWidget.Overlaps | src/widgets/calendar/CalendarWidget.tsx:177-180 | the two written disjuncts are the same closed-interval intersection test, so the test is symmetric |
| CalendarWidget.ScanForOverlap | src/widgets/calendar/CalendarWidget.tsx:171-185 | the loop with early exit yields `completed` iff some scanned slot overlaps, and the requested status otherwise |
| CalendarWidget.ResolveStatus | src/widgets/calendar/CalendarWidget.tsx:163-185 | the status is `completed` iff a slot of the same employee overlaps the new period; slots of other employees never matter |
| CalendarWidget.NewSlot | src/widgets/calendar/CalendarWidget.tsx:154-161 | the new slot carries the fresh id, the typed project name, the reserved employee and days, and the requested status unless an overlap forces `completed` |
| CalendarWidget.Submit | src/widgets/calendar/CalendarWidget.tsx:145-190 | with incomplete reservation data nothing changes; otherwise exactly the new slot is appended, the dialog closes and the selection is cleared |
| CalendarWidget.SubmitFromDialog | src/features/calendar/ReservationModal.tsx:33-42 | a blank project name never reaches the widget; a non-blank one, with both days and a non-empty employee id in the reservation data, appends one slot with the name as typed and the picked status or `completed` |
| CalendarWidget.SubmitExtendsOnlyItsBucket | src/widgets/calendar/CalendarWidget.tsx:187 | submitting adds the slot to its employee's row only; every other employee's slots are unchanged |
| CalendarWidget.OverlapExamples | src/widgets/calendar/CalendarWidget.tsx:172-185 | days 5..10 against 8..12 conflict, against 11..15 do not, and another employee's slot never conflicts |
| CalendarWidget.StepKeepsInvariants | src/widgets/calendar/CalendarWidget.tsx:90-190 | every handler keeps selected columns duplicate-free and keeps every `completed` slot justified by an earlier overlapping slot of its employee |
| CalendarWidget.RunKeepsInvariants | src/widgets/calendar/CalendarWidget.tsx:90-190 | the same two invariants hold after any sequence of user events |
| CalendarWidget.DragCoherentUnlessSidebar | src/widgets/calendar/CalendarWidget.tsx:118-134 | except for a sidebar click, every event keeps the selection on the row of the selected employee, and a mouse-over that changes the state is on the selection's own row |
| CalendarWidget.SidebarClickMixesRows | src/widgets/calendar/CalendarWidget.tsx:119 | pressing on row a, clicking employee b in the sidebar and hovering row b adds b's column to a's selection |
| CalendarWidget.DragCommitsLeastToGreatest | src/widgets/calendar/CalendarWidget.tsx:99-134 | dragging 5, 3, 4 and releasing opens the dialog for days 3 to 5 of the axis |
| CalendarWidget.MouseDownHighlightsOneCell | src/widgets/calendar/CalendarGrid.tsx:242-249 | right after a press exactly the pressed cell is highlighted |
| CalendarWidget.MouseOverOnlyAddsHighlight | src/widgets/calendar/CalendarGrid.tsx:242-249 | hovering never removes a highlight and adds at most the hovered cell |
| CalendarWidget.CloseAndSubmitClearHighlight | src/widgets/calendar/CalendarGrid.tsx:242-249 | after closing the dialog or a successful submit no cell is highlighted |
| CalendarGrid.GroupByEmployee | src/widgets/calendar/CalendarGrid.tsx:228-239 | the map has a key exactly for employees owning a slot, each bucket (with the `\|\| []` fallback) is that employee's slots in order, and every slot lands in its owner's bucket and nowhere else |
| Types.NoSlotsOf | src/widgets/calendar/CalendarGrid.tsx:115 | an employee without slots gets an empty row |
| CalendarGrid.Place | src/widgets/calendar/CalendarGrid.tsx:114-141 | a bar is drawn iff both its days are on the axis; it starts at the first column showing the start day and spans up to the first column showing the end day |
| CalendarGrid.PlaceRow | src/widgets/calendar/CalendarGrid.tsx:116-140 | the bars stand for exactly the slots with both days on the axis, in slot order and with repetitions (so a later overlapping bar paints over an earlier one), and each bar is that slot's placement |
| CalendarGrid.CountWithin | src/widgets/calendar/CalendarGrid.tsx:132 | on an ascending axis the columns from a to b-1 are exactly the days between their days |
| CalendarGrid.PlacedWidthCountsAxisDays | src/widgets/calendar/CalendarGrid.tsx:120-132 | a well-ordered slot's bar is as wide as the number of axis days it covers (at least one); an inverted slot gets a non-positive width |
| CalendarGrid.BarLeft | src/widgets/calendar/CalendarGrid.tsx:73 | a bar's left offset is a non-negative multiple of the cell size from which its start column is recovered |
| CalendarGrid.IsCellSelected | src/widgets/calendar/CalendarGrid.tsx:242-249 | no selection highlights nothing; a cell is highlighted iff the selection is on its row and some touched column equals its column; its partners are `CalendarWidget.MouseDownHighlightsOneCell`, `CalendarWidget.MouseOverOnlyAddsHighlight` and `CalendarWidget.CloseAndSubmitClearHighlight` |
| CalendarGrid.GridWidth | src/widgets/calendar/CalendarGrid.tsx:252 | the grid width is never negative |
| CalendarGrid.BarInsideGrid | src/widgets/calendar/CalendarGrid.tsx:73 | a placed bar starts inside the grid and a non-empty bar ends inside it |
| CalendarHeader.Extend | src/widgets/calendar/CalendarHeader.tsx:16-26 | each column ends the last band with its key; a new band opens iff there is none or the last band's key differs, and otherwise only the last band's end moves while earlier bands stay unchanged |
| CalendarHeader.HeaderWidth | src/widgets/calendar/CalendarHeader.tsx:60 | the header is exactly as wide as the grid below it |
| CalendarHeader.BandsUpTo | src/widgets/calendar/CalendarHeader.tsx:13-27 | the bands tile columns 0..n-1 contiguously from 0, each band has one key, and neighbouring bands have different keys |
| CalendarHeader.AxisBands | src/widgets/calendar/CalendarHeader.tsx:10-54 | month ranges and weeks are the same pass keyed by month name or week number: the bands tile the axis contiguously from column 0, one key per band, neighbouring bands with different keys |
| CalendarHeader.ColumnInExactlyOneBand | src/widgets/calendar/CalendarHeader.tsx:10-30 | every column of the axis lies in exactly one band |
| CalendarHeader.EndsBeforeLaterStarts | src/widgets/calendar/CalendarHeader.tsx:10-30 | bands are ordered and never overlap |
| CalendarHeader.SpanIsColumnCount | src/widgets/calendar/CalendarHeader.tsx:10-30 | the band lengths add up to the number of columns |
| CalendarHeader.CoveringIsUnique | src/widgets/calendar/CalendarHeader.tsx:10-30 | there is only one way to cut the axis into maximal runs of equal keys |
| CalendarHeader.BandsAreTheMaximalRuns | src/widgets/calendar/CalendarHeader.tsx:33-54 | the computed bands are that unique maximal-run cut |
| CalendarHeader.TotalBandWidth | src/widgets/calendar/CalendarHeader.tsx:77-78 | the band pixel widths add up to the spanned columns times the cell size |
| CalendarHeader.BandsFill | src/widgets/calendar/CalendarHeader.tsx:112-113 | the bands fill the header exactly: the first starts at 0, each starts where the previous ends, and together they are as wide as the axis |
| CalendarHeader.BandsFillHeader | src/widgets/calendar/CalendarHeader.tsx:60 | month bands and week bands each fill `headerWidth` |
| CalendarHeader.RecurringKeyOpensNewBand | src/widgets/calendar/CalendarHeader.tsx:16-18 | a key that returns after another key opens a new band rather than extending the earlier one |
| CalendarWheel.HeaderWheel | src/widgets/calendar/CalendarWidget.tsx:257-275 | the header always calls `preventDefault()`; it moves left by twice the horizontal delta (deltaX, or deltaY when deltaX is 0) and changes top only for an unshifted purely vertical wheel |
| CalendarWheel.SidebarWheel | src/widgets/calendar/CalendarWidget.tsx:278-294 | the sidebar always calls `preventDefault()` and moves top by deltaY; it moves left only when shifted or when deltaX is non-zero |
| CalendarWheel.PanesAgreeOnHorizontal | src/widgets/calendar/CalendarWidget.tsx:266-291 | for a shifted or horizontal wheel, header and sidebar move the grid left by the same amount; for a plain vertical wheel only the header moves it left |
| CalendarWheel.ContainerWheel | src/widgets/calendar/CalendarWidget.tsx:297-328 | the container always stops propagation and calls `preventDefault()` iff the content is missing or the wheel pushes past an edge already reached |
| CalendarWheel.InteriorNeverCancels | src/widgets/calendar/CalendarWidget.tsx:304-323 | strictly inside both scroll ranges the handler never calls `preventDefault()` |
| ReservationModal.ResetOnOpen | src/features/calendar/ReservationModal.tsx:26-31 | opening empties the project name and selects `active`; otherwise the form is kept |
| ReservationModal.EditProjectName | src/features/calendar/ReservationModal.tsx:75 | typing replaces the project name and keeps the status |
| ReservationModal.PickStatus | src/features/calendar/ReservationModal.tsx:84-101 | a radio button sets the status and keeps the project name |
| ReservationModal.HandleSubmit | src/features/calendar/ReservationModal.tsx:33-42 | a submission is emitted iff the name has a non-whitespace character, and it carries the untrimmed name and the chosen status |
| ReservationModal.Render | src/features/calendar/ReservationModal.tsx:44-111 | a closed dialog renders nothing; the submit button is disabled exactly when submit would do nothing; the period shows iff both days are known; a non-empty employee name is shown as is |
| ReservationModal.FreshlyOpenedCannotSubmit | src/features/calendar/ReservationModal.tsx:26-31 | a freshly opened dialog cannot submit and shows a disabled button |
| Select.FilteredOptions | src/shared/ui/Select.tsx:23-25 | the listed options are a subsequence of the options in which an option occurs as often as in the input iff its label contains the search text ignoring case, and not at all otherwise |
| Select.EmptySearchShowsAll | src/shared/ui/Select.tsx:23-25 | with an empty search every option is listed |
| Select.ToggleOption | src/shared/ui/Select.tsx:27-38 | in multi mode a chosen value is removed everywhere while every other value keeps its order and number of copies, and a new one is appended; in single mode the value becomes just that option and the list closes |
| Select.ToggleTwice | src/shared/ui/Select.tsx:27-38 | toggling a new value twice restores the list; toggling a chosen value twice moves it to the end |
| Select.ClickHeader | src/shared/ui/Select.tsx:56 | clicking the header flips the open state and keeps the search |
| Select.TypeSearch | src/shared/ui/Select.tsx:86 | typing replaces the search text and keeps the open state |
| SearchInput.Init | src/shared/ui/SearchInput.tsx:20-21 | the dropdown starts hidden with all suggestions |
| SearchInput.Matching | src/shared/ui/SearchInput.tsx:28-30 | the matches are a subsequence of the suggestions in which a suggestion occurs as often as in the input iff its name contains the input ignoring case, and not at all otherwise |
| SearchInput.HandleChange | src/shared/ui/SearchInput.tsx:23-36 | the input is always reported; non-empty input shows the matching suggestions; empty input hides the dropdown and keeps the last list |
| SearchInput.HandleSelectSuggestion | src/shared/ui/SearchInput.tsx:38-44 | choosing reports the name, hides the dropdown and calls `onSelect` iff it is given |
| SearchInput.HandleFocus | src/shared/ui/SearchInput.tsx:55 | focusing a non-empty input shows the dropdown; an empty input changes nothing |
| SearchInput.DropdownAfterHandlers | src/shared/ui/SearchInput.tsx:67 | after typing the dropdown is visible iff the input is non-empty and some suggestion matches; after choosing it is hidden |
| Text.MatchesIgnoringCase | src/shared/ui/Select.tsx:24 | case-insensitive containment: the lowered query occurs at some position of the lowered text; the empty query always matches |
| Text.TrimEmptyIffBlank | src/features/calendar/ReservationModal.tsx:36 | a trimmed string is empty iff every character is JavaScript whitespace |
| Seqs.Sort | src/widgets/calendar/CalendarWidget.tsx:104 | the numeric sort yields an ascending permutation of the touched columns |
| Text.Includes | src/shared/ui/Select.tsx:24 | `includes` holds iff the needle occurs at some position of the text |
| Text.Trim | src/features/calendar/ReservationModal.tsx:36 | the trimmed string is a contiguous piece of the input that neither starts nor ends with JavaScript whitespace, and everything removed before and after it is whitespace |
| Seqs.FindIndex | src/widgets/calendar/CalendarGrid.tsx:120-128 | the index is -1 iff the day is absent, and otherwise the first column holding it |

## Left out

- Virtualisation of rows (`@tanstack/react-virtual`), the mapping of virtual rows to employees, and row heights: layout, not logic.
- Pane synchronisation through `requestAnimationFrame` and the DOM scroll positions themselves. The wheel handlers are modelled on an explicit scroll record that stands in for the DOM element.
- The page scroll lock while hovering the calendar, the `alert` text, and the 200 ms blur timeout of the search input: browser side effects and timers.
- The custom scrollbar (src/shared/ui/CustomScrollbar.tsx): its thumb size and position are floating-point geometry over DOM measurements, and dragging the thumb writes the scroll position of a DOM element. Both are outside the core.
- The date picker (src/shared/ui/DatePicker.tsx): it parses its input through JavaScript `new Date(...)` and drops invalid dates, which falls under JavaScript `Date` below.
- The filters panel (src/features/calendar/CalendarFilters.tsx): it only forwards partial filter changes to the widget; the filtering itself is `CalendarWidget.FilterEmployees`.
- The presentational components (cells, bars, sidebar rows): rendering only.
- Memoised rows: every handler is modelled as reading the current widget state. The program's rows are memoised by a comparator that ignores the handler props (src/widgets/calendar/CalendarGrid.tsx:206-214), so a row may call the handler closure of its last render. Such a stale closure can ignore a hover after a sidebar click, or add a column after mouse-up while the row still sees `isSelecting` as true. The model does not capture this.
- Date utilities (`getDaysInRange`, `getWeekNumber`, `formatDate`, month names): dates are abstract day numbers. The month name or week number of a day is the key function passed to `CalendarHeader.AxisBands`.
- JavaScript `Date`, time zones and the ISO-string round trip of slot days: a day is one integer on both sides of the comparison.
- `uuidv4`: the fresh slot id is a parameter of `CalendarWidget.Submit`.
- Fractional wheel deltas and the browser's clamping of scroll positions: deltas and positions are integers and are not clamped.
- Passive wheel listeners: the model records whether a handler calls `preventDefault()`. Whether the browser honours the call depends on how the React version in use registers `onWheel`, which is outside the source.
- Mock data generation and the calendar page wrapper: not part of the core.
- Text.Lower: lowercases ASCII letters, Cyrillic А–Я and Ё only, not full Unicode `toLowerCase`.
- CalendarGrid.GroupByEmployee: the grouping key is a Dafny map key, so JavaScript object-key quirks (inherited prototype keys) are not modelled.
- CalendarGrid.GridWidth: states only non-negativity of `dates.length * CELL_SIZE`; its partner facts are in `CalendarGrid.BarInsideGrid` and `CalendarHeader.BandsFillHeader`.

=== FILE: calendar_grid.dfy ===
/** The data grid: slots grouped per employee, each slot placed as a bar over the date
    axis (or dropped when it does not fit), and the selected-cell test. */
module CalendarGrid {
  import opened Wrappers
  import opened Types
  import Seqs

  /** `timeSlotsByEmployee[id] || []`: the bucket of one employee, empty when it has none. */
  function BucketOf(buckets: map<string, seq<TimeSlot>>, employeeId: string): seq<TimeSlot> {
    if employeeId in buckets then buckets[employeeId] else []
  }

  /** `timeSlotsByEmployee`: one pass over the slots, pushing each onto the bucket of its
      `employeeId` (creating the bucket on first use). Every slot lands in exactly the
      bucket of its own employee, in its original relative order, and there is a bucket
      exactly for the employees that have slots. */
  method GroupByEmployee(timeSlots: seq<TimeSlot>) returns (buckets: map<string, seq<TimeSlot>>)
    ensures forall id :: id in buckets <==> exists t :: t in timeSlots && t.employeeId == id
    ensures forall id :: BucketOf(buckets, id) == SlotsOf(timeSlots, id)
    ensures forall t :: t in timeSlots ==> t in BucketOf(buckets, t.employeeId)
    ensures forall id, t :: t in BucketOf(buckets, id) ==> t in timeSlots && t.employeeId == id
  {
    buckets := map[];
    var i := 0;
    while i < |timeSlots|
      invariant 0 <= i <= |timeSlots|
      invariant forall id :: id in buckets <==> exists t :: t in timeSlots[..i] && t.employeeId == id
      invariant forall id :: BucketOf(buckets, id) == SlotsOf(timeSlots[..i], id)
    {
      var t := timeSlots[i];
      ghost var before := buckets;
      if t.employeeId !in buckets {
        buckets := buckets[t.employeeId := []];
      }
      buckets := buckets[t.employeeId := buckets[t.employeeId] + [t]];
      assert timeSlots[..i + 1] == timeSlots[..i] + [t];
      forall id
        ensures BucketOf(buckets, id) == SlotsOf(timeSlots[..i + 1], id)
      {
        SlotsOfSnoc(timeSlots[..i], t, id);
        assert BucketOf(before, id) == SlotsOf(timeSlots[..i], id);
      }
      i := i + 1;
    }
    assert timeSlots[..i] == timeSlots;
  }

  /** A bar for one slot: its first column and how many columns it spans. */
  datatype Placement = Placement(timeSlot: TimeSlot, startIndex: nat, width: int)

  /** `i` is the first column of the axis showing day `d`. */
  predicate FirstColumnOf(dates: seq<Day>, d: Day, i: int) {
    0 <= i < |dates| && dates[i] == d && d !in dates[..i]
  }

  /** The placement computed in `EmployeeRow`: the first column showing the start day and
      the first column showing the end day; the slot is dropped (None) as soon as either
      day is missing from the axis. */
  function Place(timeSlot: TimeSlot, dates: seq<Day>): (r: Option<Placement>)
    ensures r.Some? <==> timeSlot.startDate in dates && timeSlot.endDate in dates
    ensures r.Some? ==> r.value.timeSlot == timeSlot && FirstColumnOf(dates, timeSlot.startDate, r.value.startIndex)
    ensures r.Some? ==> exists e :: FirstColumnOf(dates, timeSlot.endDate, e) && r.value.width == e - r.value.startIndex + 1
  {
    var startIndex := Seqs.FindIndex(dates, timeSlot.startDate);
    if startIndex == -1 then None
    else
      var endIndex := Seqs.FindIndex(dates, timeSlot.endDate);
      if endIndex == -1 then None
      else
        assert FirstColumnOf(dates, timeSlot.endDate, endIndex);
        Some(Placement(timeSlot, startIndex, endIndex - startIndex + 1))
  }

  /** Both days of the slot are columns of the axis. */
  function Placeable(dates: seq<Day>): TimeSlot -> bool {
    (t: TimeSlot) => t.startDate in dates && t.endDate in dates
  }

  /** The slots the bars stand for, in bar order. */
  function SlotsOfBars(bars: seq<Placement>): seq<TimeSlot> {
    seq(|bars|, i requires 0 <= i < |bars| => bars[i].timeSlot)
  }

  lemma SlotsOfBarsCons(p: Placement, rest: seq<Placement>)
    ensures SlotsOfBars([p] + rest) == [p.timeSlot] + SlotsOfBars(rest)
  {
  }

  /** `employeeTimeSlots`: the bars of one row, in slot order, with dropped slots filtered
      out. The bars stand for exactly the placeable slots, in their original order and
      with their repetitions, so a later overlapping bar is drawn over an earlier one. */
  function PlaceRow(slots: seq<TimeSlot>, dates: seq<Day>): (r: seq<Placement>)
    ensures SlotsOfBars(r) == Seqs.Filter(Placeable(dates), slots)
    ensures forall p :: p in r ==> Place(p.timeSlot, dates) == Some(p)
    ensures forall t :: t in slots && t.startDate in dates && t.endDate in dates ==> Place(t, dates).value in r
    decreases |slots|
  {
    if |slots| == 0 then []
    else
      var rest := PlaceRow(slots[1..], dates);
      assert forall t :: t in slots[1..] ==> t in slots;
      Seqs.FilterCons(Placeable(dates), slots);
      match Place(slots[0], dates)
      case None => rest
      case Some(p) =>
        SlotsOfBarsCons(p, rest);
        [p] + rest
  }

  /** Within(lo, hi) holds of the days `lo..hi`. */
  function Within(lo: Day, hi: Day): Day -> bool {
    (d: Day) => lo <= d <= hi
  }

  /** On an ascending axis, the days of `dates[a..b]` are exactly those between
      `dates[a]` and `dates[b - 1]`. */
  lemma CountWithin(dates: seq<Day>, a: int, b: int)
    requires StrictlyIncreasing(dates) && 0 <= a < b <= |dates|
    ensures |Seqs.Filter(Within(dates[a], dates[b - 1]), dates)| == b - a
  {
    var p := Within(dates[a], dates[b - 1]);
    assert dates == dates[..a] + dates[a..b] + dates[b..];
    Seqs.FilterConcat(p, dates[..a] + dates[a..b], dates[b..]);
    Seqs.FilterConcat(p, dates[..a], dates[a..b]);
    NoneBefore(dates, a, b);
    AllInside(dates, a, b);
    NoneAfter(dates, a, b);
  }

  lemma NoneBefore(dates: seq<Day>, a: int, b: int)
    requires StrictlyIncreasing(dates) && 0 <= a < b <= |dates|
    ensures Seqs.Filter(Within(dates[a], dates[b - 1]), dates[..a]) == []
  {
    var p, before := Within(dates[a], dates[b - 1]), dates[..a];
    forall k | 0 <= k < |before|
      ensures !p(before[k])
    {
      assert before[k] == dates[k] < dates[a];
    }
    Seqs.FilterKeepsNone(p, before);
  }

  lemma AllInside(dates: seq<Day>, a: int, b: int)
    requires StrictlyIncreasing(dates) && 0 <= a < b <= |dates|
    ensures Seqs.Filter(Within(dates[a], dates[b - 1]), dates[a..b]) == dates[a..b]
  {
    var p, inside := Within(dates[a], dates[b - 1]), dates[a..b];
    forall k | 0 <= k < |inside|
      ensures p(inside[k])
    {
      assert inside[k] == dates[a + k];
      assert dates[a] <= dates[a + k] <= dates[b - 1];
    }
    Seqs.FilterKeepsAll(p, inside);
  }

  lemma NoneAfter(dates: seq<Day>, a: int, b: int)
    requires StrictlyIncreasing(dates) && 0 <= a < b <= |dates|
    ensures Seqs.Filter(Within(dates[a], dates[b - 1]), dates[b..]) == []
  {
    var p, after := Within(dates[a], dates[b - 1]), dates[b..];
    forall k | 0 <= k < |after|
      ensures !p(after[k])
    {
      assert after[k] == dates[b + k] > dates[b - 1];
    }
    Seqs.FilterKeepsNone(p, after);
  }

  /** On an ascending axis a placed bar of a well-formed slot (start day not after end
      day) is at least one column wide, and its width is the number of axis days the slot
      covers; a slot whose start is after its end gets a width of at most zero. */
  lemma PlacedWidthCountsAxisDays(timeSlot: TimeSlot, dates: seq<Day>)
    requires StrictlyIncreasing(dates)
    requires Place(timeSlot, dates).Some?
    ensures var p := Place(timeSlot, dates).value;
      timeSlot.startDate <= timeSlot.endDate ==>
        p.width >= 1 && p.width == |Seqs.Filter(Within(timeSlot.startDate, timeSlot.endDate), dates)|
    ensures timeSlot.startDate > timeSlot.endDate ==> Place(timeSlot, dates).value.width <= 0
  {
    var p := Place(timeSlot, dates).value;
    var e :| FirstColumnOf(dates, timeSlot.endDate, e) && p.width == e - p.startIndex + 1;
    if timeSlot.startDate <= timeSlot.endDate {
      assert p.startIndex <= e;
      CountWithin(dates, p.startIndex, e + 1);
    } else {
      assert e < p.startIndex;
    }
  }

  /** The bar's left offset in pixels. */
  function BarLeft(p: Placement, cellSize: int): (r: int)
    ensures cellSize > 0 ==> 0 <= r && r % cellSize == 0 && r / cellSize == p.startIndex
  {
    MultipleDivides(p.startIndex, cellSize);
    p.startIndex * cellSize
  }

  /** A multiple of the cell size lies on a cell boundary, and dividing recovers the column. */
  lemma MultipleDivides(a: nat, c: int)
    ensures c > 0 ==> 0 <= a * c && (a * c) % c == 0 && (a * c) / c == a
  {
    if c <= 0 { return; }
    var q, m := (a * c) / c, (a * c) % c;
    assert a * c == c * q + m && 0 <= m < c;
    assert c * (a - q) == m;
    if a - q >= 1 {
      MulMonotone(1, a - q, c);
    } else if a - q <= -1 {
      MulMonotone(a - q, -1, c);
    }
  }

  /** The width of the grid (and of its header) in pixels. */
  function GridWidth(dates: seq<Day>, cellSize: int): (r: int)
    ensures cellSize > 0 ==> r >= 0
  {
    |dates| * cellSize
  }

  lemma MulMonotone(a: int, b: int, c: int)
    requires a <= b && c > 0
    ensures a * c <= b * c
  {
  }

  lemma MulAddOne(a: int, c: int)
    ensures a * c + c == (a + 1) * c
  {
  }

  /** On an ascending axis, the first column of a day is not after the first column of a
      later (or equal) day. */
  lemma FirstColumnsOrdered(dates: seq<Day>, d: Day, i: int, d': Day, j: int)
    requires StrictlyIncreasing(dates) && FirstColumnOf(dates, d, i) && FirstColumnOf(dates, d', j)
    requires d <= d'
    ensures i <= j
  {
  }

  /** A placed bar starts inside the grid, and on an ascending axis a well-formed slot's
      bar also ends inside it. */
  lemma BarInsideGrid(timeSlot: TimeSlot, dates: seq<Day>, cellSize: int)
    requires cellSize > 0 && Place(timeSlot, dates).Some?
    ensures var p := Place(timeSlot, dates).value;
      0 <= BarLeft(p, cellSize) < GridWidth(dates, cellSize)
    ensures var p := Place(timeSlot, dates).value;
      StrictlyIncreasing(dates) && timeSlot.startDate <= timeSlot.endDate ==>
        BarLeft(p, cellSize) + p.width * cellSize <= GridWidth(dates, cellSize)
  {
    var p := Place(timeSlot, dates).value;
    var start: int, n: int := p.startIndex, |dates|;
    var e: int :| FirstColumnOf(dates, timeSlot.endDate, e) && p.width == e - start + 1;
    MulMonotone(0, start, cellSize);
    MulAddOne(start, cellSize);
    MulMonotone(start + 1, n, cellSize);
    if StrictlyIncreasing(dates) && timeSlot.startDate <= timeSlot.endDate {
      FirstColumnsOrdered(dates, timeSlot.startDate, start, timeSlot.endDate, e);
      MulMonotone(e + 1, n, cellSize);
      MulSplit(start, e + 1 - start, cellSize);
    }
  }

  lemma MulSplit(a: int, w: int, c: int)
    ensures a * c + w * c == (a + w) * c
  {
  }

  /** `isCellSelected`: the cell of `employeeId` at `dateIndex` is highlighted. */
  predicate IsCellSelected(selectedCells: Option<Selection>, employeeId: string, dateIndex: int)
    ensures selectedCells.None? ==> !IsCellSelected(selectedCells, employeeId, dateIndex)
    ensures IsCellSelected(selectedCells, employeeId, dateIndex) <==>
      && selectedCells.Some? && selectedCells.value.employeeId == employeeId
      && exists k :: 0 <= k < |selectedCells.value.dateIndexes| && selectedCells.value.dateIndexes[k] == dateIndex
  {
    match selectedCells
    case None => false
    case Some(sel) => sel.employeeId == employeeId && dateIndex in sel.dateIndexes
  }
}

=== FILE: calendar_header.dfy ===
/** The date header: month bands and week bands above the day columns. Both are built by
    the same pass over the axis, which opens a new band whenever a day's key (month name,
    week number) differs from the key of the band opened last. */
module CalendarHeader {
  import opened Types
  import CalendarGrid

  /** One header band: a key and the inclusive column range it spans. */
  datatype Band<K> = Band(key: K, startIndex: int, endIndex: int)

  /** One step of the pass at column `index`: extend the last band when it has the same
      key, otherwise open a one-column band. */
  function Extend<K(==)>(bands: seq<Band<K>>, key: K, index: int): (r: seq<Band<K>>)
    ensures |r| > 0 && r[|r| - 1].key == key && r[|r| - 1].endIndex == index
    ensures |r| == |bands| + 1 <==> |bands| == 0 || bands[|bands| - 1].key != key
    ensures |r| == |bands| + 1 ==> r[..|bands|] == bands && r[|r| - 1].startIndex == index
    ensures |r| != |bands| + 1 ==>
      && |r| == |bands| && r[..|r| - 1] == bands[..|bands| - 1]
      && r[|r| - 1].startIndex == bands[|bands| - 1].startIndex
  {
    if |bands| == 0 || bands[|bands| - 1].key != key then bands + [Band(key, index, index)]
    else bands[..|bands| - 1] + [bands[|bands| - 1].(endIndex := index)]
  }

  /** `bands` cut the columns `0..n-1` of `keys` into consecutive non-empty runs, each of
      one key, with neighbouring runs of different keys. */
  ghost predicate Covers<K>(bands: seq<Band<K>>, keys: seq<K>, n: int) {
    && 0 <= n <= |keys|
    && (|bands| == 0 <==> n == 0)
    && (|bands| > 0 ==> bands[0].startIndex == 0 && bands[|bands| - 1].endIndex == n - 1)
    && (forall i :: 0 <= i < |bands| ==> bands[i].startIndex <= bands[i].endIndex)
    && (forall i :: 0 <= i < |bands| - 1 ==> bands[i + 1].startIndex == bands[i].endIndex + 1)
    && (forall i :: 0 <= i < |bands| - 1 ==> bands[i + 1].key != bands[i].key)
    && (forall i, j :: 0 <= i < |bands| && bands[i].startIndex <= j <= bands[i].endIndex && 0 <= j < |keys| ==>
          keys[j] == bands[i].key)
  }

  /** The first and last bands bound every band, so no band reaches past column `n - 1`. */
  lemma {:induction false} BandsInRange<K>(bands: seq<Band<K>>, keys: seq<K>, n: int, i: int)
    requires Covers(bands, keys, n) && 0 <= i < |bands|
    ensures 0 <= bands[i].startIndex && bands[i].endIndex <= n - 1
    decreases |bands| - i
  {
    if i < |bands| - 1 {
      BandsInRange(bands, keys, n, i + 1);
    }
    StartsAscend(bands, keys, n, i);
  }

  lemma {:induction false} StartsAscend<K>(bands: seq<Band<K>>, keys: seq<K>, n: int, i: int)
    requires Covers(bands, keys, n) && 0 <= i < |bands|
    ensures bands[i].startIndex >= i
    decreases i
  {
    if i > 0 {
      StartsAscend(bands, keys, n, i - 1);
    }
  }

  lemma ExtendCovers<K>(bands: seq<Band<K>>, keys: seq<K>, n: int)
    requires Covers(bands, keys, n) && n < |keys|
    ensures Covers(Extend(bands, keys[n], n), keys, n + 1)
  {
    var r := Extend(bands, keys[n], n);
    if |bands| > 0 {
      BandsInRange(bands, keys, n, |bands| - 1);
    }
    if |bands| == 0 || bands[|bands| - 1].key != keys[n] {
      assert r[|r| - 1] == Band(keys[n], n, n);
      assert forall i :: 0 <= i < |bands| ==> r[i] == bands[i];
    } else {
      assert forall i :: 0 <= i < |bands| - 1 ==> r[i] == bands[i];
      forall i, j | 0 <= i < |r| && r[i].startIndex <= j <= r[i].endIndex && 0 <= j < |keys|
        ensures keys[j] == r[i].key
      {
        if i == |r| - 1 && j == n {
        } else {
          assert bands[i].startIndex <= j <= bands[i].endIndex;
        }
      }
    }
  }

  /** `getMonthRanges` / `getWeeks` over the first `n` columns. */
  function BandsUpTo<K(==)>(keys: seq<K>, n: nat): (r: seq<Band<K>>)
    requires n <= |keys|
    ensures Covers(r, keys, n)
  {
    if n == 0 then [] else Next(BandsUpTo(keys, n - 1), keys, n - 1)
  }

  /** The pass's step at column `n`, carrying the covering forward. */
  function Next<K(==)>(bands: seq<Band<K>>, keys: seq<K>, n: nat): (r: seq<Band<K>>)
    requires Covers(bands, keys, n) && n < |keys|
    ensures Covers(r, keys, n + 1)
  {
    ExtendCovers(bands, keys, n);
    Extend(bands, keys[n], n)
  }

  /** The run grouping of a whole key sequence. */
  function Bands<K(==)>(keys: seq<K>): (r: seq<Band<K>>)
    ensures Covers(r, keys, |keys|)
  {
    BandsUpTo(keys, |keys|)
  }

  /** The bands of an axis, given the key of each day: `getMonthRanges` keys a day by its
      month name and `getWeeks` by its week number; both run the same pass. */
  function AxisBands<K(==)>(dates: seq<Day>, keyOf: Day -> K): (r: seq<Band<K>>)
    ensures Covers(r, seq(|dates|, i requires 0 <= i < |dates| => keyOf(dates[i])), |dates|)
  {
    Bands(seq(|dates|, i requires 0 <= i < |dates| => keyOf(dates[i])))
  }

  /** Total number of columns spanned by the bands, `sum(endIndex - startIndex + 1)`. */
  function Span<K>(bands: seq<Band<K>>): int
    decreases |bands|
  {
    if |bands| == 0 then 0
    else Span(bands[..|bands| - 1]) + (bands[|bands| - 1].endIndex - bands[|bands| - 1].startIndex + 1)
  }

  /** Dropping the last band leaves a covering of the columns before it. */
  lemma DropLast<K>(bands: seq<Band<K>>, keys: seq<K>, n: int)
    requires Covers(bands, keys, n) && |bands| > 0
    ensures Covers(bands[..|bands| - 1], keys, bands[|bands| - 1].startIndex)
  {
    var p := bands[..|bands| - 1];
    BandsInRange(bands, keys, n, |bands| - 1);
    if |p| > 0 {
      BandsInRange(bands, keys, n, |bands| - 2);
      assert p[|p| - 1] == bands[|bands| - 2];
    } else {
      assert bands[|bands| - 1] == bands[0];
    }
  }

  /** The bands span exactly the `n` covered columns. */
  lemma {:induction false} SpanIsColumnCount<K>(bands: seq<Band<K>>, keys: seq<K>, n: int)
    requires Covers(bands, keys, n)
    ensures Span(bands) == n
    decreases |bands|
  {
    if |bands| > 0 {
      DropLast(bands, keys, n);
      SpanIsColumnCount(bands[..|bands| - 1], keys, bands[|bands| - 1].startIndex);
    }
  }

  predicate InBand<K>(b: Band<K>, j: int) {
    b.startIndex <= j <= b.endIndex
  }

  /** Every covered column lies in exactly one band. */
  lemma {:induction false} ColumnInExactlyOneBand<K>(bands: seq<Band<K>>, keys: seq<K>, n: int, j: int)
    requires Covers(bands, keys, n) && 0 <= j < n
    ensures exists i :: 0 <= i < |bands| && InBand(bands[i], j)
    ensures forall i, i' :: 0 <= i < |bands| && 0 <= i' < |bands| && InBand(bands[i], j) && InBand(bands[i'], j) ==> i == i'
    decreases |bands|
  {
    var last := |bands| - 1;
    if j < bands[last].startIndex {
      DropLast(bands, keys, n);
      ColumnInExactlyOneBand(bands[..last], keys, bands[last].startIndex, j);
      var i :| 0 <= i < last && bands[..last][i].startIndex <= j <= bands[..last][i].endIndex;
      assert bands[i].startIndex <= j <= bands[i].endIndex;
    } else {
      assert bands[last].startIndex <= j <= bands[last].endIndex;
    }
    forall i, i' | 0 <= i < i' < |bands|
      ensures bands[i].endIndex < bands[i'].startIndex
    {
      EndsBeforeLaterStarts(bands, keys, n, i, i');
    }
  }

  lemma {:induction false} EndsBeforeLaterStarts<K>(bands: seq<Band<K>>, keys: seq<K>, n: int, i: int, i': int)
    requires Covers(bands, keys, n) && 0 <= i < i' < |bands|
    ensures bands[i].endIndex < bands[i'].startIndex
    decreases i' - i
  {
    if i' > i + 1 {
      EndsBeforeLaterStarts(bands, keys, n, i, i' - 1);
    }
  }

  /** `s` is where the maximal run of equal keys ending at column `n - 1` begins. */
  ghost predicate RunStart<K>(keys: seq<K>, n: int, s: int)
    requires 0 < n <= |keys|
  {
    && 0 <= s < n
    && (forall j :: s <= j < n ==> keys[j] == keys[n - 1])
    && (s > 0 ==> keys[s - 1] != keys[n - 1])
  }

  /** The last band of a covering starts where the final run of equal keys begins. */
  lemma LastBandStartsRun<K>(bands: seq<Band<K>>, keys: seq<K>, n: int)
    requires Covers(bands, keys, n) && n > 0
    ensures RunStart(keys, n, bands[|bands| - 1].startIndex)
  {
    var last := |bands| - 1;
    BandsInRange(bands, keys, n, last);
    assert InBand(bands[last], n - 1);
    if bands[last].startIndex > 0 {
      assert last > 0;
      BandsInRange(bands, keys, n, last - 1);
      assert InBand(bands[last - 1], bands[last].startIndex - 1);
    }
  }

  lemma RunStartUnique<K>(keys: seq<K>, n: int, s: int, s': int)
    requires 0 < n <= |keys| && RunStart(keys, n, s) && RunStart(keys, n, s')
    ensures s == s'
  {
  }

  /** Two coverings of the same columns end with the same band. */
  lemma LastBandsAgree<K>(b1: seq<Band<K>>, b2: seq<Band<K>>, keys: seq<K>, n: int)
    requires Covers(b1, keys, n) && Covers(b2, keys, n) && n > 0
    ensures b1[|b1| - 1] == b2[|b2| - 1]
  {
    LastBandStartsRun(b1, keys, n);
    LastBandStartsRun(b2, keys, n);
    RunStartUnique(keys, n, b1[|b1| - 1].startIndex, b2[|b2| - 1].startIndex);
    BandsInRange(b1, keys, n, |b1| - 1);
    BandsInRange(b2, keys, n, |b2| - 1);
    assert b1[|b1| - 1].key == keys[n - 1] == b2[|b2| - 1].key;
  }

  lemma SameInitAndLast<T>(a: seq<T>, b: seq<T>)
    requires |a| > 0 && |b| > 0 && a[..|a| - 1] == b[..|b| - 1] && a[|a| - 1] == b[|b| - 1]
    ensures a == b
  {
    assert a == a[..|a| - 1] + [a[|a| - 1]];
    assert b == b[..|b| - 1] + [b[|b| - 1]];
  }

  /** There is only one way to cut columns into maximal runs: any covering equals the
      bands the header computes. */
  lemma {:induction false} CoveringIsUnique<K>(b1: seq<Band<K>>, b2: seq<Band<K>>, keys: seq<K>, n: int)
    requires Covers(b1, keys, n) && Covers(b2, keys, n)
    ensures b1 == b2
    decreases |b1|
  {
    if n > 0 {
      LastBandsAgree(b1, b2, keys, n);
      var start := b1[|b1| - 1].startIndex;
      DropLast(b1, keys, n);
      DropLast(b2, keys, n);
      CoveringIsUnique(b1[..|b1| - 1], b2[..|b2| - 1], keys, start);
      SameInitAndLast(b1, b2);
    }
  }

  /** The computed bands are the unique covering of the axis by maximal runs. */
  lemma BandsAreTheMaximalRuns<K>(keys: seq<K>, bands: seq<Band<K>>)
    requires Covers(bands, keys, |keys|)
    ensures Bands(keys) == bands
  {
    CoveringIsUnique(Bands(keys), bands, keys, |keys|);
  }

  /** `headerWidth`: the width of the header in pixels. */
  function HeaderWidth(dates: seq<Day>, cellSize: int): (r: int)
    ensures r == CalendarGrid.GridWidth(dates, cellSize)
    ensures cellSize > 0 ==> r >= 0
  {
    |dates| * cellSize
  }

  /** The pixel left offset and width of a band. */
  function BandLeft<K>(b: Band<K>, cellSize: int): int {
    b.startIndex * cellSize
  }

  function BandWidth<K>(b: Band<K>, cellSize: int): int {
    (b.endIndex - b.startIndex + 1) * cellSize
  }

  /** Sum of band pixel widths. */
  function TotalBandWidth<K>(bands: seq<Band<K>>, cellSize: int): (r: int)
    ensures r == Span(bands) * cellSize
    decreases |bands|
  {
    if |bands| == 0 then 0
    else TotalBandWidth(bands[..|bands| - 1], cellSize) + BandWidth(bands[|bands| - 1], cellSize)
  }

  /** The bands of any key sequence fill its columns' pixel width exactly: the first starts
      at the left edge, each starts where the previous one ends, and their widths add up
      to the number of columns times the cell size. */
  lemma BandsFill<K>(keys: seq<K>, cellSize: int)
    ensures TotalBandWidth(Bands(keys), cellSize) == |keys| * cellSize
    ensures var b := Bands(keys);
      (|b| > 0 ==> BandLeft(b[0], cellSize) == 0) &&
      forall i :: 0 <= i < |b| - 1 ==> BandLeft(b[i], cellSize) + BandWidth(b[i], cellSize) == BandLeft(b[i + 1], cellSize)
  {
    var b := Bands(keys);
    SpanIsColumnCount(b, keys, |keys|);
    forall i | 0 <= i < |b| - 1
      ensures BandLeft(b[i], cellSize) + BandWidth(b[i], cellSize) == BandLeft(b[i + 1], cellSize)
    {
      assert b[i + 1].startIndex == b[i].endIndex + 1;
      assert b[i].startIndex * cellSize + (b[i].endIndex - b[i].startIndex + 1) * cellSize
          == (b[i].endIndex + 1) * cellSize;
    }
  }

  /** The month bands and the week bands each fill `headerWidth` exactly. */
  lemma BandsFillHeader<K>(dates: seq<Day>, keyOf: Day -> K, cellSize: int)
    ensures TotalBandWidth(AxisBands(dates, keyOf), cellSize) == HeaderWidth(dates, cellSize)
  {
    BandsFill(seq(|dates|, i requires 0 <= i < |dates| => keyOf(dates[i])), cellSize);
  }

  /** A key that comes back after a different one opens a new band: only the band opened
      last is compared. */
  lemma RecurringKeyOpensNewBand()
    ensures Bands(["март", "март", "апрель", "март"]) ==
            [Band("март", 0, 1), Band("апрель", 2, 2), Band("март", 3, 3)]
  {
    var keys := ["март", "март", "апрель", "март"];
    assert BandsUpTo(keys, 1) == [Band("март", 0, 0)];
    assert BandsUpTo(keys, 2) == [Band("март", 0, 1)];
    assert BandsUpTo(keys, 3) == [Band("март", 0, 1), Band("апрель", 2, 2)];
  }
}

=== FILE: calendar_wheel.dfy ===
/** The wheel handlers of the calendar widget. The date header and the employee sidebar
    never scroll by themselves: their handlers call `preventDefault()` on a wheel event and
    turn it into a change of the grid's scroll position. A wheel event over the whole widget
    is kept from bubbling, and its handler calls `preventDefault()` when the grid is already
    at the edge it is moving towards. Deltas are whole pixels here. */
module CalendarWheel {
  import opened Wrappers

  datatype Wheel = Wheel(deltaX: int, deltaY: int, shiftKey: bool)

  /** The grid's scroll offsets. */
  datatype Scroll = Scroll(scrollLeft: int, scrollTop: int)

  /** What a pane's handler does: whether it calls `preventDefault()`, and the grid's
      scroll offsets afterwards (None when the grid's scroll element is not mounted). */
  datatype PaneResult = PaneResult(preventDefault: bool, scroll: Option<Scroll>)

  /** Horizontal deltas are doubled for faster panning. */
  const HorizontalSpeed: int := 2

  /** JavaScript's `a || b` on numbers: `a` unless it is zero. */
  function Or(a: int, b: int): int {
    if a != 0 then a else b
  }

  function Abs(x: int): int {
    if x < 0 then -x else x
  }

  /** The horizontal delta both panes use: the horizontal wheel delta, or the vertical one
      when there is no horizontal motion. */
  function HorizontalDelta(ev: Wheel): int {
    if ev.deltaX != 0 then ev.deltaX else ev.deltaY
  }

  /** `handleHeaderWheel`. Horizontal scrolling always happens, by twice the horizontal
      delta (or the vertical one if there is none, with or without Shift); a purely vertical
      unshifted wheel also scrolls vertically. */
  function HeaderWheel(ev: Wheel, content: Option<Scroll>): (r: PaneResult)
    ensures r.preventDefault
    ensures r.scroll.Some? <==> content.Some?
    ensures content.Some? ==>
      r.scroll.value.scrollLeft == content.value.scrollLeft + HorizontalSpeed * HorizontalDelta(ev)
    ensures content.Some? ==>
      (r.scroll.value.scrollTop != content.value.scrollTop <==> !ev.shiftKey && ev.deltaY != 0 && ev.deltaX == 0)
    ensures content.Some? && r.scroll.value.scrollTop != content.value.scrollTop ==>
      r.scroll.value.scrollTop == content.value.scrollTop + ev.deltaY
  {
    if content.None? then PaneResult(true, None)
    else
      var c := content.value;
      var deltaX := if ev.shiftKey || Abs(ev.deltaX) > 0 then Or(ev.deltaX, ev.deltaY) else ev.deltaY;
      var c1 := c.(scrollLeft := c.scrollLeft + deltaX * 2);
      var c2 := if !ev.shiftKey && Abs(ev.deltaY) > 0 && Abs(ev.deltaX) == 0
                then c1.(scrollTop := c1.scrollTop + ev.deltaY) else c1;
      PaneResult(true, Some(c2))
  }

  /** `handleSidebarWheel`. Vertical scrolling always happens, by the vertical delta;
      horizontal scrolling happens only with Shift or horizontal motion. */
  function SidebarWheel(ev: Wheel, content: Option<Scroll>): (r: PaneResult)
    ensures r.preventDefault
    ensures r.scroll.Some? <==> content.Some?
    ensures content.Some? ==> r.scroll.value.scrollTop == content.value.scrollTop + ev.deltaY
    ensures content.Some? && !ev.shiftKey && ev.deltaX == 0 ==>
      r.scroll.value.scrollLeft == content.value.scrollLeft
    ensures content.Some? && (ev.shiftKey || ev.deltaX != 0) ==>
      r.scroll.value.scrollLeft == content.value.scrollLeft + HorizontalSpeed * HorizontalDelta(ev)
  {
    if content.None? then PaneResult(true, None)
    else
      var c := content.value;
      var c1 := c.(scrollTop := c.scrollTop + ev.deltaY);
      var c2 := if ev.shiftKey || Abs(ev.deltaX) > 0
                then c1.(scrollLeft := c1.scrollLeft + (if Abs(ev.deltaX) > 0 then ev.deltaX else ev.deltaY) * 2)
                else c1;
      PaneResult(true, Some(c2))
  }

  /** The two passenger panes agree on horizontal motion whenever the sidebar scrolls
      horizontally at all; a plain vertical wheel is where they differ: over the header
      it pans sideways as well as down, over the sidebar only down. */
  lemma PanesAgreeOnHorizontal(ev: Wheel, c: Scroll)
    ensures ev.shiftKey || ev.deltaX != 0 ==>
      HeaderWheel(ev, Some(c)).scroll.value.scrollLeft == SidebarWheel(ev, Some(c)).scroll.value.scrollLeft
    ensures !ev.shiftKey && ev.deltaX == 0 && ev.deltaY != 0 ==>
      && HeaderWheel(ev, Some(c)).scroll.value == Scroll(c.scrollLeft + 2 * ev.deltaY, c.scrollTop + ev.deltaY)
      && SidebarWheel(ev, Some(c)).scroll.value == Scroll(c.scrollLeft, c.scrollTop + ev.deltaY)
  {
  }

  /** The grid's scroll element measurements. */
  datatype ScrollBox = ScrollBox(
    scrollLeft: int, scrollTop: int,
    clientWidth: int, clientHeight: int,
    scrollWidth: int, scrollHeight: int)

  predicate AtBottom(b: ScrollBox) { b.scrollTop + b.clientHeight >= b.scrollHeight }
  predicate AtTop(b: ScrollBox) { b.scrollTop <= 0 }
  predicate AtRight(b: ScrollBox) { b.scrollLeft + b.clientWidth >= b.scrollWidth }
  predicate AtLeft(b: ScrollBox) { b.scrollLeft <= 0 }

  /** The wheel moves towards an edge the grid has already reached. */
  predicate PushesPastEdge(ev: Wheel, b: ScrollBox) {
    || (ev.deltaY > 0 && AtBottom(b))
    || (ev.deltaY < 0 && AtTop(b))
    || (ev.deltaX > 0 && AtRight(b))
    || (ev.deltaX < 0 && AtLeft(b))
  }

  datatype Disposition = Disposition(preventDefault: bool, stopPropagation: bool)

  /** `handleCalendarWheel`: always stops propagation; calls `preventDefault()` iff the
      scroll element is missing or the wheel pushes past an edge already reached. */
  function ContainerWheel(ev: Wheel, box: Option<ScrollBox>): (r: Disposition)
    ensures r.stopPropagation
    ensures r.preventDefault <==> box.None? || PushesPastEdge(ev, box.value)
  {
    if box.Some? then
      var b := box.value;
      if ev.deltaY > 0 && b.scrollTop + b.clientHeight >= b.scrollHeight then Disposition(true, true)
      else if ev.deltaY < 0 && b.scrollTop <= 0 then Disposition(true, true)
      else if ev.deltaX > 0 && b.scrollLeft + b.clientWidth >= b.scrollWidth then Disposition(true, true)
      else if ev.deltaX < 0 && b.scrollLeft <= 0 then Disposition(true, true)
      else Disposition(false, true)
    else Disposition(true, true)
  }

  /** Strictly inside the scrollable area the handler never calls `preventDefault()`. */
  lemma InteriorNeverCancels(ev: Wheel, b: ScrollBox)
    requires 0 < b.scrollTop && b.scrollTop + b.clientHeight < b.scrollHeight
    requires 0 < b.scrollLeft && b.scrollLeft + b.clientWidth < b.scrollWidth
    ensures !ContainerWheel(ev, Some(b)).preventDefault
  {
  }
}

=== FILE: calendar_widget.dfy ===
/** The calendar widget's own state and its event handlers: the drag selection over one
    employee's row, committing it to open the reservation dialog, submitting a reservation
    (with the overlap rule), cancelling, and the employee filter. Each handler is one
    atomic transition from the current state to the next. */
module CalendarWidget {
  import opened Wrappers
  import opened Types
  import Seqs
  import CalendarGrid
  import ReservationModal

  /** The dates and employee that the dialog will reserve. A start or end date is None
      when the committed column is not on the axis (`dates[i]` is then undefined). */
  datatype ReservationData = ReservationData(startDate: Option<Day>, endDate: Option<Day>, employeeId: Option<string>)

  datatype State = State(
    selectedCells: Option<Selection>,
    isSelecting: bool,
    selectedEmployee: Option<string>,
    isModalOpen: bool,
    reservationData: ReservationData,
    timeSlots: seq<TimeSlot>)

  /** The state on mount. */
  function Init(initialTimeSlots: seq<TimeSlot>): (s: State)
    ensures s.selectedCells.None? && !s.isSelecting && s.selectedEmployee.None? && !s.isModalOpen
    ensures s.reservationData == ReservationData(None, None, None)
    ensures s.timeSlots == initialTimeSlots
  {
    State(None, false, None, false, ReservationData(None, None, None), initialTimeSlots)
  }

  // ---------------------------------------------------------------- employee filter

  /** The employee has at least one of the listed activity types. */
  predicate SharesActivity(e: Employee, activityTypes: seq<string>) {
    exists t :: t in e.activityType && t in activityTypes
  }

  /** The filter callback: reject on a failed activity test, then on a failed name test. */
  function KeepEmployee(activityTypes: seq<string>, employeeNames: seq<string>): Employee -> bool {
    (e: Employee) =>
      if |activityTypes| > 0 && !SharesActivity(e, activityTypes) then false
      else if |employeeNames| > 0 && e.name !in employeeNames then false
      else true
  }

  /** `filteredEmployees`: an order-preserving subsequence of the employees, keeping one
      iff it passes the activity filter (when any is set) and the name filter (when any is
      set). */
  function FilterEmployees(employees: seq<Employee>, activityTypes: seq<string>, employeeNames: seq<string>): (r: seq<Employee>)
    ensures Seqs.IsSubsequence(r, employees)
    ensures forall e :: e in r <==>
      && e in employees
      && (|activityTypes| == 0 || SharesActivity(e, activityTypes))
      && (|employeeNames| == 0 || e.name in employeeNames)
    ensures forall e :: multiset(r)[e] == (
              if (|activityTypes| == 0 || SharesActivity(e, activityTypes)) && (|employeeNames| == 0 || e.name in employeeNames)
              then multiset(employees)[e] else 0)
  {
    Seqs.FilterIsSubsequence(KeepEmployee(activityTypes, employeeNames), employees);
    Seqs.Filter(KeepEmployee(activityTypes, employeeNames), employees)
  }

  /** With no activity and no name filter every employee is shown, in order. */
  lemma NoFilterKeepsEveryone(employees: seq<Employee>)
    ensures FilterEmployees(employees, [], []) == employees
  {
    Seqs.FilterKeepsAll(KeepEmployee([], []), employees);
  }

  /** `i` is the first position of an employee with the given id (what `find` returns). */
  predicate FirstWithId(employees: seq<Employee>, employeeId: string, i: int) {
    && 0 <= i < |employees|
    && employees[i].id == employeeId
    && forall j :: 0 <= j < i ==> employees[j].id != employeeId
  }

  /** `selectedEmployeeName`: the name of the first employee with the reserved id, or None
      when there is no id (or it is empty), no such employee, or that employee's name is
      empty. */
  function SelectedEmployeeName(employees: seq<Employee>, employeeId: Option<string>): (r: Option<string>)
    ensures r.Some? ==>
      && employeeId.Some? && employeeId.value != "" && r.value != ""
      && exists i :: FirstWithId(employees, employeeId.value, i) && employees[i].name == r.value
    ensures r.None? ==>
      || employeeId.None? || employeeId.value == ""
      || (forall i :: 0 <= i < |employees| ==> employees[i].id != employeeId.value)
      || exists i :: FirstWithId(employees, employeeId.value, i) && employees[i].name == ""
  {
    if employeeId.None? || employeeId.value == "" then None
    else
      var ids := seq(|employees|, i requires 0 <= i < |employees| => employees[i].id);
      var k := Seqs.FindIndex(ids, employeeId.value);
      if k == -1 then
        assert forall i :: 0 <= i < |employees| ==> ids[i] == employees[i].id;
        None
      else
        forall j | 0 <= j < k
          ensures employees[j].id != employeeId.value
        {
          assert ids[..k][j] == ids[j] == employees[j].id;
        }
        assert FirstWithId(employees, employeeId.value, k);
        if employees[k].name == "" then None else Some(employees[k].name)
  }

  // ---------------------------------------------------------------- drag selection

  /** `handleCellMouseDown`: start a drag on one cell, discarding any earlier selection. */
  function MouseDown(s: State, employeeId: string, dateIndex: int): (r: State)
    ensures r.isSelecting && r.selectedEmployee == Some(employeeId)
    ensures r.selectedCells == Some(Selection(employeeId, [dateIndex]))
    ensures r.isModalOpen == s.isModalOpen && r.reservationData == s.reservationData && r.timeSlots == s.timeSlots
  {
    s.(isSelecting := true, selectedEmployee := Some(employeeId), selectedCells := Some(Selection(employeeId, [dateIndex])))
  }

  /** Mouse-over is live: a drag is on and the hovered row is the selected employee's. */
  predicate OverIsLive(s: State, employeeId: string) {
    s.isSelecting && s.selectedEmployee == Some(employeeId)
  }

  /** `handleCellMouseOver`: while a drag is on the selected employee's row, add the
      hovered column if it is not already selected. */
  function MouseOver(s: State, employeeId: string, dateIndex: int): (r: State)
    ensures !OverIsLive(s, employeeId) ==> r == s
    ensures r.(selectedCells := s.selectedCells) == s
    ensures r.selectedCells.Some? <==> s.selectedCells.Some?
    ensures r.selectedCells.Some? ==> r.selectedCells.value.employeeId == s.selectedCells.value.employeeId
    ensures r.selectedCells.Some? ==> s.selectedCells.value.dateIndexes <= r.selectedCells.value.dateIndexes
    ensures r.selectedCells.Some? ==> forall c :: c in r.selectedCells.value.dateIndexes <==>
      c in s.selectedCells.value.dateIndexes || (OverIsLive(s, employeeId) && c == dateIndex)
    ensures r.selectedCells.Some? && Seqs.NoDuplicates(s.selectedCells.value.dateIndexes) ==>
      Seqs.NoDuplicates(r.selectedCells.value.dateIndexes)
  {
    if OverIsLive(s, employeeId) then
      match s.selectedCells
      case None => s
      case Some(sel) =>
        if dateIndex in sel.dateIndexes then s
        else s.(selectedCells := Some(sel.(dateIndexes := sel.dateIndexes + [dateIndex])))
    else s
  }

  /** There is a selection with at least one column. */
  predicate HasSelection(s: State) {
    s.selectedCells.Some? && |s.selectedCells.value.dateIndexes| > 0
  }

  /** `dates[i]`: the day in column `i`, or None where JavaScript reads `undefined`. */
  function AxisDay(dates: seq<Day>, i: int): (r: Option<Day>)
    ensures r.Some? <==> 0 <= i < |dates|
    ensures r.Some? ==> r.value == dates[i]
  {
    if 0 <= i < |dates| then Some(dates[i]) else None
  }

  predicate IsLeast(x: int, s: seq<int>) {
    x in s && forall y :: y in s ==> x <= y
  }

  predicate IsGreatest(x: int, s: seq<int>) {
    x in s && forall y :: y in s ==> y <= x
  }

  /** The least element of a non-empty sequence. */
  function Least(s: seq<int>): (m: int)
    requires |s| > 0
    ensures IsLeast(m, s)
    decreases |s|
  {
    if |s| == 1 then s[0]
    else
      var m := Least(s[1..]);
      assert forall y :: y in s ==> y == s[0] || y in s[1..];
      if s[0] <= m then s[0] else m
  }

  /** The greatest element of a non-empty sequence. */
  function Greatest(s: seq<int>): (m: int)
    requires |s| > 0
    ensures IsGreatest(m, s)
    decreases |s|
  {
    if |s| == 1 then s[0]
    else
      var m := Greatest(s[1..]);
      assert forall y :: y in s ==> y == s[0] || y in s[1..];
      if s[0] >= m then s[0] else m
  }

  /** The least and greatest elements depend only on which values occur. */
  lemma ExtremesDependOnlyOnValues(a: seq<int>, b: seq<int>)
    requires |a| > 0 && |b| > 0
    requires forall c :: c in a <==> c in b
    ensures Least(a) == Least(b) && Greatest(a) == Greatest(b)
  {
    assert Least(a) <= Least(b) && Least(b) <= Least(a);
    assert Greatest(a) <= Greatest(b) && Greatest(b) <= Greatest(a);
  }

  /** The commit's date range: sort the touched columns numerically and read the days of
      the first and the last, which are the least and the greatest touched column whatever
      the order in which they were touched. */
  function CommitRange(dates: seq<Day>, dateIndexes: seq<int>): (r: (Option<Day>, Option<Day>))
    requires |dateIndexes| > 0
    ensures r == (AxisDay(dates, Least(dateIndexes)), AxisDay(dates, Greatest(dateIndexes)))
  {
    var sorted := Seqs.Sort(dateIndexes);
    Seqs.SortedEnds(dateIndexes, sorted);
    assert sorted[0] <= Least(dateIndexes) <= sorted[0];
    assert sorted[|sorted| - 1] <= Greatest(dateIndexes) <= sorted[|sorted| - 1];
    (AxisDay(dates, sorted[0]), AxisDay(dates, sorted[|sorted| - 1]))
  }

  /** The commit depends only on which columns were touched, not on the order or on how
      many times: entering 5, 3, 4 commits the same range as entering 3, 4, 5. */
  lemma CommitRangeIgnoresOrder(dates: seq<Day>, a: seq<int>, b: seq<int>)
    requires |a| > 0 && |b| > 0
    requires forall c :: c in a <==> c in b
    ensures CommitRange(dates, a) == CommitRange(dates, b)
  {
    ExtremesDependOnlyOnValues(a, b);
  }

  /** On an ascending axis with every touched column on it, the committed range is a
      well-formed day range that contains the day of every touched column, including the
      columns the mouse skipped over. */
  lemma CommitCoversTouchedColumns(dates: seq<Day>, dateIndexes: seq<int>)
    requires StrictlyIncreasing(dates) && |dateIndexes| > 0
    requires forall c :: c in dateIndexes ==> 0 <= c < |dates|
    ensures var r := CommitRange(dates, dateIndexes);
      r.0.Some? && r.1.Some? && r.0.value <= r.1.value &&
      forall c :: c in dateIndexes ==> r.0.value <= dates[c] <= r.1.value
  {
    var lo, hi := Least(dateIndexes), Greatest(dateIndexes);
    forall c | c in dateIndexes
      ensures dates[lo] <= dates[c] <= dates[hi]
    {
      assert lo <= c <= hi;
    }
  }

  /** The reservation data a commit writes: the employee of the selection and its range. */
  function Committed(sel: Selection, dates: seq<Day>): (rd: ReservationData)
    requires |sel.dateIndexes| > 0
    ensures rd.employeeId == Some(sel.employeeId)
    ensures rd.startDate == AxisDay(dates, Least(sel.dateIndexes))
    ensures rd.endDate == AxisDay(dates, Greatest(sel.dateIndexes))
  {
    var range := CommitRange(dates, sel.dateIndexes);
    ReservationData(range.0, range.1, Some(sel.employeeId))
  }

  /** `handleCellMouseUp`: end the drag; with a non-empty selection, fill in the
      reservation data from it and open the dialog. The selection itself is kept. */
  function MouseUp(s: State, dates: seq<Day>): (r: State)
    ensures !r.isSelecting
    ensures r.selectedCells == s.selectedCells && r.selectedEmployee == s.selectedEmployee && r.timeSlots == s.timeSlots
    ensures HasSelection(s) ==> r.isModalOpen && r.reservationData == Committed(s.selectedCells.value, dates)
    ensures !HasSelection(s) ==> r == s.(isSelecting := false)
  {
    var s1 := s.(isSelecting := false);
    if HasSelection(s) then s1.(reservationData := Committed(s.selectedCells.value, dates), isModalOpen := true)
    else s1
  }

  /** The Reserve button either opens the dialog or, with nothing selected, only alerts. */
  datatype ReserveOutcome = Opened(state: State) | NoSelectionAlert

  /** `handleOpenReservationModal`. */
  function Reserve(s: State, dates: seq<Day>): (r: ReserveOutcome)
    ensures r.Opened? <==> HasSelection(s)
    ensures r.Opened? ==> r.state.isModalOpen && r.state.reservationData == Committed(s.selectedCells.value, dates)
    ensures r.Opened? ==> r.state.(isModalOpen := s.isModalOpen, reservationData := s.reservationData) == s
  {
    if HasSelection(s) then Opened(s.(reservationData := Committed(s.selectedCells.value, dates), isModalOpen := true))
    else NoSelectionAlert
  }

  /** The Reserve button commits exactly as releasing the mouse does, except that it
      leaves the drag flag alone. */
  lemma ReserveAgreesWithMouseUp(s: State, dates: seq<Day>)
    requires HasSelection(s)
    ensures Reserve(s, dates).state == MouseUp(s, dates).(isSelecting := s.isSelecting)
  {
  }

  /** `onClose` of the dialog: close it and drop the selection; no slot is touched. */
  function Close(s: State): (r: State)
    ensures !r.isModalOpen && r.selectedCells.None?
    ensures r.timeSlots == s.timeSlots && r.reservationData == s.reservationData
    ensures r.isSelecting == s.isSelecting && r.selectedEmployee == s.selectedEmployee
  {
    s.(isModalOpen := false, selectedCells := None)
  }

  /** Clicking an employee in the sidebar. */
  function SidebarClick(s: State, employeeId: string): (r: State)
    ensures r.selectedEmployee == Some(employeeId)
    ensures r.(selectedEmployee := s.selectedEmployee) == s
  {
    s.(selectedEmployee := Some(employeeId))
  }

  // ---------------------------------------------------------------- reservation

  /** The date test of the overlap check, as written with its two disjuncts. */
  function Overlaps(newStart: Day, newEnd: Day, existingStart: Day, existingEnd: Day): (r: bool)
    ensures r <==> newStart <= existingEnd && existingStart <= newEnd
  {
    (newStart <= existingEnd && newEnd >= existingStart) ||
    (existingStart <= newEnd && existingEnd >= newStart)
  }

  /** Some slot of `slots` overlaps the day range `newStart..newEnd`. */
  predicate AnyOverlap(slots: seq<TimeSlot>, newStart: Day, newEnd: Day) {
    exists t :: t in slots && Overlaps(newStart, newEnd, t.startDate, t.endDate)
  }

  /** The loop over the employee's slots: the first overlap found forces 'completed' and
      stops the scan; without one the submitted status stands. */
  function ScanForOverlap(slots: seq<TimeSlot>, newStart: Day, newEnd: Day, status: TimeSlotStatus): (r: TimeSlotStatus)
    ensures AnyOverlap(slots, newStart, newEnd) ==> r == Completed
    ensures !AnyOverlap(slots, newStart, newEnd) ==> r == status
    decreases |slots|
  {
    if |slots| == 0 then status
    else if Overlaps(newStart, newEnd, slots[0].startDate, slots[0].endDate) then Completed
    else
      assert forall t :: t in slots ==> t == slots[0] || t in slots[1..];
      ScanForOverlap(slots[1..], newStart, newEnd, status)
  }

  /** The status a new slot gets: 'completed' iff some existing slot of the same employee
      overlaps it; otherwise the submitted status. Other employees' slots never matter. */
  function ResolveStatus(timeSlots: seq<TimeSlot>, employeeId: string, newStart: Day, newEnd: Day,
                         status: TimeSlotStatus): (r: TimeSlotStatus)
    ensures AnyOverlap(SlotsOf(timeSlots, employeeId), newStart, newEnd) ==> r == Completed
    ensures !AnyOverlap(SlotsOf(timeSlots, employeeId), newStart, newEnd) ==> r == status
    ensures (exists t :: t in timeSlots && t.employeeId == employeeId && Overlaps(newStart, newEnd, t.startDate, t.endDate))
            <==> AnyOverlap(SlotsOf(timeSlots, employeeId), newStart, newEnd)
  {
    ScanForOverlap(SlotsOf(timeSlots, employeeId), newStart, newEnd, status)
  }

  /** The reservation data are complete: two dates and a (truthy, so non-empty) employee id. */
  predicate ReadyToSubmit(s: State) {
    s.reservationData.startDate.Some? && s.reservationData.endDate.Some? &&
    s.reservationData.employeeId.Some? && s.reservationData.employeeId.value != ""
  }

  /** The slot a submission creates. */
  function NewSlot(s: State, data: ReservationModal.Submission, freshId: string): (t: TimeSlot)
    requires ReadyToSubmit(s)
    ensures t.id == freshId && t.projectName == data.projectName
    ensures t.employeeId == s.reservationData.employeeId.value
    ensures t.startDate == s.reservationData.startDate.value && t.endDate == s.reservationData.endDate.value
    ensures t.status == Completed <==> AnyOverlap(SlotsOf(s.timeSlots, t.employeeId), t.startDate, t.endDate)
    ensures t.status != Completed ==> t.status == data.status
  {
    var rd := s.reservationData;
    TimeSlot(freshId, rd.employeeId.value, data.projectName, rd.startDate.value, rd.endDate.value,
             ResolveStatus(s.timeSlots, rd.employeeId.value, rd.startDate.value, rd.endDate.value, data.status))
  }

  /** `handleReservation`: with complete reservation data, append exactly one new slot,
      close the dialog and drop the selection; otherwise do nothing. */
  function Submit(s: State, data: ReservationModal.Submission, freshId: string): (r: State)
    ensures !ReadyToSubmit(s) ==> r == s
    ensures ReadyToSubmit(s) ==>
      && r.timeSlots == s.timeSlots + [NewSlot(s, data, freshId)]
      && !r.isModalOpen && r.selectedCells.None?
      && r.isSelecting == s.isSelecting && r.selectedEmployee == s.selectedEmployee
      && r.reservationData == s.reservationData
  {
    if !ReadyToSubmit(s) then s
    else s.(timeSlots := s.timeSlots + [NewSlot(s, data, freshId)], isModalOpen := false, selectedCells := None)
  }

  /** The dialog's submit button wired to `handleReservation`: a blank project name
      changes nothing; otherwise the widget receives the name as typed and the picked
      status. */
  function SubmitFromDialog(s: State, form: ReservationModal.Form, freshId: string): (r: State)
    ensures ReservationModal.HandleSubmit(form).None? ==> r == s
    ensures ReservationModal.HandleSubmit(form).Some? && ReadyToSubmit(s) ==>
      && |r.timeSlots| == |s.timeSlots| + 1
      && r.timeSlots[|s.timeSlots|].projectName == form.projectName
      && r.timeSlots[|s.timeSlots|].status in {Completed, form.status}
  {
    match ReservationModal.HandleSubmit(form)
    case None => s
    case Some(data) => Submit(s, data, freshId)
  }

  /** A submission adds the new slot at the end of its own employee's bucket and changes
      no other employee's bucket. */
  lemma SubmitExtendsOnlyItsBucket(s: State, data: ReservationModal.Submission, freshId: string, employeeId: string)
    requires ReadyToSubmit(s)
    ensures var t := NewSlot(s, data, freshId);
      SlotsOf(Submit(s, data, freshId).timeSlots, employeeId) ==
        SlotsOf(s.timeSlots, employeeId) + (if employeeId == t.employeeId then [t] else [])
  {
    var t := NewSlot(s, data, freshId);
    Seqs.FilterConcat(OwnedBy(employeeId), s.timeSlots, [t]);
    assert [t][1..] == [];
  }

  /** The overlap examples: against an existing slot over days 5..10 of the same employee,
      a new slot over 8..12 becomes 'completed' and one over 11..15 keeps its status; a
      slot of another employee over 5..10 never matters. */
  lemma OverlapExamples()
    ensures ResolveStatus([TimeSlot("x", "e1", "p", 5, 10, Active)], "e1", 8, 12, Pending) == Completed
    ensures ResolveStatus([TimeSlot("x", "e1", "p", 5, 10, Active)], "e1", 11, 15, Pending) == Pending
    ensures ResolveStatus([TimeSlot("x", "e2", "p", 5, 10, Active)], "e1", 8, 12, Active) == Active
  {
    var a := TimeSlot("x", "e1", "p", 5, 10, Active);
    var b := TimeSlot("x", "e2", "p", 5, 10, Active);
    SlotsOfSingleton(a);
    NoSlotsOf([b], "e1");
  }

  // ---------------------------------------------------------------- event sequences

  datatype Event =
    | CellMouseDown(employeeId: string, dateIndex: int)
    | CellMouseOver(employeeId: string, dateIndex: int)
    | CellMouseUp(dates: seq<Day>)
    | ReserveClicked(dates: seq<Day>)
    | ModalSubmitted(data: ReservationModal.Submission, freshId: string)
    | ModalClosed
    | SidebarSelected(employeeId: string)

  /** One event, handled by its handler; `dates` is the axis on screen at that moment. */
  function Step(s: State, ev: Event): State {
    match ev
    case CellMouseDown(e, i) => MouseDown(s, e, i)
    case CellMouseOver(e, i) => MouseOver(s, e, i)
    case CellMouseUp(dates) => MouseUp(s, dates)
    case ReserveClicked(dates) => (match Reserve(s, dates) case Opened(s') => s' case NoSelectionAlert => s)
    case ModalSubmitted(data, id) => Submit(s, data, id)
    case ModalClosed => Close(s)
    case SidebarSelected(e) => SidebarClick(s, e)
  }

  /** Events handled one after another. */
  function Run(s: State, events: seq<Event>): State
    decreases |events|
  {
    if |events| == 0 then s else Run(Step(s, events[0]), events[1..])
  }

  /** No column occurs twice in the selection. */
  predicate ColumnsDistinct(s: State) {
    s.selectedCells.Some? ==> Seqs.NoDuplicates(s.selectedCells.value.dateIndexes)
  }

  /** Every 'completed' slot overlaps an earlier slot of the same employee: 'completed' only
      ever comes from the overlap rule, since the dialog offers only 'active' and 'pending'. */
  predicate CompletedMeansConflict(slots: seq<TimeSlot>) {
    forall k :: 0 <= k < |slots| && slots[k].status == Completed ==>
      AnyOverlap(SlotsOf(slots[..k], slots[k].employeeId), slots[k].startDate, slots[k].endDate)
  }

  lemma StepKeepsInvariants(s: State, ev: Event)
    requires ColumnsDistinct(s) && CompletedMeansConflict(s.timeSlots)
    ensures var r := Step(s, ev);
      && ColumnsDistinct(r)
      && CompletedMeansConflict(r.timeSlots)
      && s.timeSlots <= r.timeSlots
      && |r.timeSlots| <= |s.timeSlots| + 1
  {
    if ev.ModalSubmitted? && ReadyToSubmit(s) {
      SubmitKeepsConflictRule(s, ev.data, ev.freshId);
    }
  }

  /** Appending the new slot keeps every 'completed' slot justified: the old ones keep
      their prefixes, and the new one is 'completed' only on an overlap. */
  lemma SubmitKeepsConflictRule(s: State, data: ReservationModal.Submission, freshId: string)
    requires ReadyToSubmit(s) && CompletedMeansConflict(s.timeSlots)
    ensures CompletedMeansConflict(Submit(s, data, freshId).timeSlots)
  {
    var slots := Submit(s, data, freshId).timeSlots;
    var n := |s.timeSlots|;
    assert slots == s.timeSlots + [NewSlot(s, data, freshId)];
    forall k | 0 <= k < |slots| && slots[k].status == Completed
      ensures AnyOverlap(SlotsOf(slots[..k], slots[k].employeeId), slots[k].startDate, slots[k].endDate)
    {
      if k < n {
        assert slots[..k] == s.timeSlots[..k];
        assert slots[k] == s.timeSlots[k];
      } else {
        assert slots[..k] == s.timeSlots;
      }
    }
  }

  /** Over any sequence of events: the selection never holds a column twice, slots are
      only ever appended (earlier ones never change), and 'completed' marks a conflict. */
  lemma {:induction false} RunKeepsInvariants(s: State, events: seq<Event>)
    requires ColumnsDistinct(s) && CompletedMeansConflict(s.timeSlots)
    ensures var r := Run(s, events);
      && ColumnsDistinct(r)
      && CompletedMeansConflict(r.timeSlots)
      && s.timeSlots <= r.timeSlots
      && |r.timeSlots| <= |s.timeSlots| + |events|
    decreases |events|
  {
    if |events| > 0 {
      StepKeepsInvariants(s, events[0]);
      RunKeepsInvariants(Step(s, events[0]), events[1..]);
    }
  }

  /** While a drag is on, the selected employee is the selection's own employee. */
  predicate DragCoherent(s: State) {
    s.isSelecting && s.selectedCells.Some? ==> s.selectedEmployee == Some(s.selectedCells.value.employeeId)
  }

  /** Every handler except the sidebar click keeps the drag coherent, and in a coherent
      state mouse-over only ever adds a column of the selection's own row. */
  lemma DragCoherentUnlessSidebar(s: State, ev: Event)
    requires DragCoherent(s) && !ev.SidebarSelected?
    ensures DragCoherent(Step(s, ev))
    ensures ev.CellMouseOver? && Step(s, ev) != s ==> ev.employeeId == s.selectedCells.value.employeeId
  {
  }

  /** A sidebar click during a drag re-targets mouse-over: hovering the clicked employee's
      row then adds that row's column to the other employee's selection. */
  lemma SidebarClickMixesRows()
    ensures Run(Init([]), [CellMouseDown("a", 3), SidebarSelected("b"), CellMouseOver("b", 7)]).selectedCells
            == Some(Selection("a", [3, 7]))
  {
    var evs := [CellMouseDown("a", 3), SidebarSelected("b"), CellMouseOver("b", 7)];
    var s1 := Step(Init([]), evs[0]);
    var s2 := Step(s1, evs[1]);
    assert s2.selectedCells == Some(Selection("a", [3])) && OverIsLive(s2, "b");
    var s3 := Step(s2, evs[2]);
    assert 7 !in [3] && [3] + [7] == [3, 7];
    assert s3.selectedCells == Some(Selection("a", [3, 7]));
    assert evs[1..][1..] == [evs[2]];
    assert Run(s3, []) == s3;
    assert Run(s2, [evs[2]]) == s3;
    assert Run(s1, evs[1..]) == s3;
  }

  /** Dragging from column 5 over 3 and 4 and releasing commits days `dates[3]..dates[5]`
      for the dragged employee and opens the dialog. */
  lemma DragCommitsLeastToGreatest(dates: seq<Day>)
    requires |dates| > 5
    ensures var s := MouseUp(MouseOver(MouseOver(MouseDown(Init([]), "e", 5), "e", 3), "e", 4), dates);
      s.isModalOpen && !s.isSelecting &&
      s.reservationData == ReservationData(Some(dates[3]), Some(dates[5]), Some("e"))
  {
    var s1 := MouseDown(Init([]), "e", 5);
    var s2 := MouseOver(s1, "e", 3);
    assert 3 !in [5] && [5] + [3] == [5, 3];
    assert s2.selectedCells == Some(Selection("e", [5, 3]));
    var s := MouseOver(s2, "e", 4);
    assert 4 !in [5, 3] && [5, 3] + [4] == [5, 3, 4];
    assert s.selectedCells == Some(Selection("e", [5, 3, 4]));
    assert Least([5, 3, 4]) == 3 by { assert 3 in [5, 3, 4]; }
    assert Greatest([5, 3, 4]) == 5 by { assert 5 in [5, 3, 4]; }
  }

  // ---------------------------------------------------------------- grid highlighting

  /** After mouse-down exactly the pressed cell is highlighted. */
  lemma MouseDownHighlightsOneCell(s: State, employeeId: string, dateIndex: int, e: string, i: int)
    ensures CalendarGrid.IsCellSelected(MouseDown(s, employeeId, dateIndex).selectedCells, e, i) <==>
            e == employeeId && i == dateIndex
  {
  }

  /** Mouse-over never un-highlights a cell, and highlights the hovered one iff the drag
      is live on its row and a selection exists. */
  lemma MouseOverOnlyAddsHighlight(s: State, employeeId: string, dateIndex: int, e: string, i: int)
    ensures CalendarGrid.IsCellSelected(s.selectedCells, e, i) ==>
            CalendarGrid.IsCellSelected(MouseOver(s, employeeId, dateIndex).selectedCells, e, i)
    ensures CalendarGrid.IsCellSelected(MouseOver(s, employeeId, dateIndex).selectedCells, e, i) ==>
            CalendarGrid.IsCellSelected(s.selectedCells, e, i) ||
            (OverIsLive(s, employeeId) && e == s.selectedCells.value.employeeId && i == dateIndex)
  {
  }

  /** Closing the dialog or submitting a reservation un-highlights every cell. */
  lemma CloseAndSubmitClearHighlight(s: State, data: ReservationModal.Submission, freshId: string, e: string, i: int)
    ensures !CalendarGrid.IsCellSelected(Close(s).selectedCells, e, i)
    ensures ReadyToSubmit(s) ==> !CalendarGrid.IsCellSelected(Submit(s, data, freshId).selectedCells, e, i)
  {
  }
}

=== FILE: reservation_modal.dfy ===
/** The reservation dialog: a project-name field and an active/pending choice, reset each
    time the dialog opens, submitted only when the name is not blank. */
module ReservationModal {
  import opened Wrappers
  import opened Types
  import Text

  /** The dialog's own state: the typed project name and the picked status. */
  datatype Form = Form(projectName: string, status: FormStatus)

  /** The payload handed to `onSubmit`. */
  datatype Submission = Submission(projectName: string, status: FormStatus)

  /** Label shown when no employee name is known. */
  const NoEmployeeLabel: string := "Не выбран"

  /** The effect keyed on `isOpen`: opening the dialog clears the name and picks 'active';
      closing it leaves the form as it was. */
  function ResetOnOpen(form: Form, isOpen: bool): (r: Form)
    ensures isOpen ==> r.projectName == "" && r.status == Active
    ensures !isOpen ==> r == form
  {
    if isOpen then Form("", Active) else form
  }

  /** Typing into the project-name input. */
  function EditProjectName(form: Form, text: string): (r: Form)
    ensures r.projectName == text && r.status == form.status
  {
    form.(projectName := text)
  }

  /** Clicking one of the two status radio buttons. */
  function PickStatus(form: Form, status: FormStatus): (r: Form)
    ensures r.status == status && r.projectName == form.projectName
  {
    form.(status := status)
  }

  /** The submit handler: `onSubmit` is called, with the name exactly as typed, iff the
      name has a character that is not white space. */
  function HandleSubmit(form: Form): (r: Option<Submission>)
    ensures r.Some? <==> exists i :: 0 <= i < |form.projectName| && !Text.IsWhitespace(form.projectName[i])
    ensures r.Some? ==> r.value.projectName == form.projectName && r.value.status == form.status
  {
    Text.TrimEmptyIffBlank(form.projectName);
    if Text.Trim(form.projectName) != "" then Some(Submission(form.projectName, form.status)) else None
  }

  /** What an open dialog shows. */
  datatype View = View(
    employeeLabel: string,
    period: Option<(Day, Day)>,
    projectName: string,
    status: FormStatus,
    submitDisabled: bool)

  /** Rendering: a closed dialog renders nothing; an open one disables its submit button
      exactly when submitting would do nothing. */
  function Render(isOpen: bool, form: Form, startDate: Option<Day>, endDate: Option<Day>,
                  employeeName: Option<string>): (r: Option<View>)
    ensures r.None? <==> !isOpen
    ensures r.Some? ==> (r.value.submitDisabled <==> HandleSubmit(form).None?)
    ensures r.Some? ==> (r.value.period.Some? <==> startDate.Some? && endDate.Some?)
    ensures r.Some? && employeeName.Some? && employeeName.value != "" ==> r.value.employeeLabel == employeeName.value
  {
    if !isOpen then None
    else
      Text.TrimEmptyIffBlank(form.projectName);
      var shown := if employeeName.Some? && employeeName.value != "" then employeeName.value else NoEmployeeLabel;
      var period := if startDate.Some? && endDate.Some? then Some((startDate.value, endDate.value)) else None;
      Some(View(shown, period, form.projectName, form.status, Text.Trim(form.projectName) == ""))
  }

  /** Right after opening, the dialog cannot be submitted until a name is typed. */
  lemma FreshlyOpenedCannotSubmit(form: Form)
    ensures HandleSubmit(ResetOnOpen(form, true)).None?
    ensures Render(true, ResetOnOpen(form, true), None, None, None).value.submitDisabled
  {
  }
}

=== FILE: search_input.dfy ===
/** The search box with a suggestion dropdown. Each keystroke forwards the raw input and,
    for a non-empty input, recomputes the case-insensitive matches and shows them. */
module SearchInput {
  import opened Wrappers
  import Seqs
  import Text

  datatype Suggestion = Suggestion(id: string, name: string, dates: Option<string>)

  /** The component's own state. */
  datatype SearchState = SearchState(showSuggestions: bool, filteredSuggestions: seq<Suggestion>)

  /** What a handler does: the value handed to `onChange`, the value handed to `onSelect`
      (None when it is not called), and the state afterwards. */
  datatype Handled = Handled(changed: string, selected: Option<string>, state: SearchState)

  /** The state on mount: hidden, with every suggestion as the filtered list. */
  function Init(suggestions: seq<Suggestion>): (r: SearchState)
    ensures !r.showSuggestions && r.filteredSuggestions == suggestions
  {
    SearchState(false, suggestions)
  }

  function NameMatches(query: string): Suggestion -> bool {
    (s: Suggestion) => Text.MatchesIgnoringCase(s.name, query)
  }

  /** The suggestions whose name contains the input, ignoring case, in order. */
  function Matching(suggestions: seq<Suggestion>, query: string): (r: seq<Suggestion>)
    ensures Seqs.IsSubsequence(r, suggestions)
    ensures forall s :: s in r <==> s in suggestions && Text.MatchesIgnoringCase(s.name, query)
    ensures forall s :: multiset(r)[s] == if Text.MatchesIgnoringCase(s.name, query) then multiset(suggestions)[s] else 0
  {
    Seqs.FilterIsSubsequence(NameMatches(query), suggestions);
    Seqs.Filter(NameMatches(query), suggestions)
  }

  /** `handleChange`: always forward the raw input; a non-empty input refilters and shows
      the list; an empty one hides it and keeps the previous filtered list. */
  function HandleChange(st: SearchState, suggestions: seq<Suggestion>, inputValue: string): (r: Handled)
    ensures r.changed == inputValue && r.selected.None?
    ensures |inputValue| > 0 ==> r.state == SearchState(true, Matching(suggestions, inputValue))
    ensures |inputValue| == 0 ==> !r.state.showSuggestions && r.state.filteredSuggestions == st.filteredSuggestions
  {
    if |inputValue| > 0 then Handled(inputValue, None, SearchState(true, Matching(suggestions, inputValue)))
    else Handled(inputValue, None, st.(showSuggestions := false))
  }

  /** `handleSelectSuggestion`: forward the chosen name, hide the list, and call `onSelect`
      with the name iff one was given. */
  function HandleSelectSuggestion(st: SearchState, name: string, hasOnSelect: bool): (r: Handled)
    ensures r.changed == name
    ensures !r.state.showSuggestions && r.state.filteredSuggestions == st.filteredSuggestions
    ensures r.selected.Some? <==> hasOnSelect
    ensures r.selected.Some? ==> r.selected.value == name
  {
    Handled(name, if hasOnSelect then Some(name) else None, st.(showSuggestions := false))
  }

  /** Focusing the input shows the list again when the input is not empty. */
  function HandleFocus(st: SearchState, value: string): (r: SearchState)
    ensures |value| > 0 ==> r.showSuggestions
    ensures |value| == 0 ==> r == st
    ensures r.filteredSuggestions == st.filteredSuggestions
  {
    if |value| > 0 then st.(showSuggestions := true) else st
  }

  /** The dropdown is rendered. */
  predicate DropdownVisible(st: SearchState) {
    st.showSuggestions && |st.filteredSuggestions| > 0
  }

  /** After typing, the dropdown is visible iff the input is non-empty and some suggestion
      matches it; after choosing a suggestion it is hidden. */
  lemma DropdownAfterHandlers(st: SearchState, suggestions: seq<Suggestion>, input: string, name: string, hasOnSelect: bool)
    ensures DropdownVisible(HandleChange(st, suggestions, input).state) <==>
      |input| > 0 && exists s :: s in suggestions && Text.MatchesIgnoringCase(s.name, input)
    ensures !DropdownVisible(HandleSelectSuggestion(st, name, hasOnSelect).state)
  {
    if |input| > 0 {
      var m := Matching(suggestions, input);
      if exists s :: s in suggestions && Text.MatchesIgnoringCase(s.name, input) {
        var s :| s in suggestions && Text.MatchesIgnoringCase(s.name, input);
        assert s in m;
      }
    }
  }
}

=== FILE: select.dfy ===
/** The dropdown select of the filter bar: a searchable option list whose click toggles an
    option in a multi-select or replaces the choice in a single-select. */
module Select {
  import Seqs
  import Text

  /** One option: its value and its shown label. */
  datatype Choice = Choice(value: string, labelText: string)

  /** The select's own state: whether the list is open and the search text. */
  datatype SelectState = SelectState(isOpen: bool, searchText: string)

  /** What a click on an option does: the selection handed to `onChange`, and the state
      afterwards. */
  datatype Toggled = Toggled(selected: seq<string>, state: SelectState)

  function LabelMatches(searchText: string): Choice -> bool {
    (o: Choice) => Text.MatchesIgnoringCase(o.labelText, searchText)
  }

  /** `filteredOptions`: the options whose lower-cased label (`labelText`) contains the lower-cased
      search text, in their original order. */
  function FilteredOptions(options: seq<Choice>, searchText: string): (r: seq<Choice>)
    ensures Seqs.IsSubsequence(r, options)
    ensures forall o :: o in r <==> o in options && Text.MatchesIgnoringCase(o.labelText, searchText)
    ensures forall o :: multiset(r)[o] == (
              if Text.MatchesIgnoringCase(o.labelText, searchText) then multiset(options)[o] else 0)
  {
    Seqs.FilterIsSubsequence(LabelMatches(searchText), options);
    Seqs.Filter(LabelMatches(searchText), options)
  }

  /** An empty search shows every option. */
  lemma EmptySearchShowsAll(options: seq<Choice>)
    ensures FilteredOptions(options, "") == options
  {
    Seqs.FilterKeepsAll(LabelMatches(""), options);
  }

  function Differs(x: string): string -> bool {
    (v: string) => v != x
  }

  /** `toggleOption`. Multi-select: a present value is removed wherever it occurs, the
      others staying in order; an absent one is appended; the list stays as it is.
      Single-select: the selection becomes exactly that value and the list closes. */
  function ToggleOption(st: SelectState, value: seq<string>, multiSelect: bool, optionValue: string): (r: Toggled)
    ensures multiSelect ==> r.state == st
    ensures multiSelect && optionValue in value ==>
      && optionValue !in r.selected
      && Seqs.IsSubsequence(r.selected, value)
      && (forall v :: v in r.selected <==> v in value && v != optionValue)
      && forall v :: multiset(r.selected)[v] == if v == optionValue then 0 else multiset(value)[v]
    ensures multiSelect && optionValue !in value ==> r.selected == value + [optionValue]
    ensures !multiSelect ==> r.selected == [optionValue] && !r.state.isOpen && r.state.searchText == st.searchText
  {
    if multiSelect then
      if optionValue in value then
        Seqs.FilterIsSubsequence(Differs(optionValue), value);
        Toggled(Seqs.Filter(Differs(optionValue), value), st)
      else Toggled(value + [optionValue], st)
    else Toggled([optionValue], st.(isOpen := false))
  }

  /** In a multi-select, toggling an absent value twice gives back the original selection;
      toggling a present value twice moves it, once, to the end. */
  lemma ToggleTwice(st: SelectState, value: seq<string>, x: string)
    ensures x !in value ==>
      ToggleOption(st, ToggleOption(st, value, true, x).selected, true, x).selected == value
    ensures x in value ==>
      ToggleOption(st, ToggleOption(st, value, true, x).selected, true, x).selected ==
        Seqs.Filter(Differs(x), value) + [x]
  {
    if x !in value {
      Seqs.FilterConcat(Differs(x), value, [x]);
      Seqs.FilterKeepsAll(Differs(x), value);
      Seqs.FilterKeepsNone(Differs(x), [x]);
    }
  }

  /** Clicking the select's header opens or closes the list. */
  function ClickHeader(st: SelectState): (r: SelectState)
    ensures r.isOpen != st.isOpen && r.searchText == st.searchText
  {
    st.(isOpen := !st.isOpen)
  }

  /** Typing in the search box. */
  function TypeSearch(st: SelectState, text: string): (r: SelectState)
    ensures r.searchText == text && r.isOpen == st.isOpen
  {
    st.(searchText := text)
  }
}

=== FILE: seqs.dfy ===
/** Sequence helpers standing in for the JavaScript array methods the calendar uses:
    `filter`, `findIndex`, `includes` and the numeric `sort`. */
module Seqs {

  /** `r` is an order-preserving subsequence of `s`. */
  ghost predicate IsSubsequence<T>(r: seq<T>, s: seq<T>)
    decreases |s|
  {
    if |r| == 0 then true
    else if |s| == 0 then false
    else (r[0] == s[0] && IsSubsequence(r[1..], s[1..])) || IsSubsequence(r, s[1..])
  }

  /** No element occurs twice. */
  predicate NoDuplicates<T(==)>(s: seq<T>) {
    forall i, j :: 0 <= i < j < |s| ==> s[i] != s[j]
  }

  /** `Array.prototype.filter`: the elements of `s` that satisfy `p`, in their original order. */
  function Filter<T(!new)>(p: T -> bool, s: seq<T>): (r: seq<T>)
    ensures |r| <= |s|
    ensures forall x :: x in r <==> x in s && p(x)
    ensures forall x :: multiset(r)[x] == if p(x) then multiset(s)[x] else 0
    decreases |s|
  {
    if |s| == 0 then []
    else
      assert s == [s[0]] + s[1..];
      if p(s[0]) then [s[0]] + Filter(p, s[1..])
      else Filter(p, s[1..])
  }

  /** One step of the filter: the head is kept iff it satisfies `p`. */
  lemma FilterCons<T(!new)>(p: T -> bool, s: seq<T>)
    requires |s| > 0
    ensures Filter(p, s) == if p(s[0]) then [s[0]] + Filter(p, s[1..]) else Filter(p, s[1..])
  {
  }

  lemma {:induction false} FilterIsSubsequence<T(!new)>(p: T -> bool, s: seq<T>)
    ensures IsSubsequence(Filter(p, s), s)
    decreases |s|
  {
    if |s| > 0 {
      FilterIsSubsequence(p, s[1..]);
      var r := Filter(p, s);
      if p(s[0]) {
        assert r[0] == s[0] && r[1..] == Filter(p, s[1..]);
      } else if |r| > 0 {
        assert r == Filter(p, s[1..]);
      }
    }
  }

  /** Filtering distributes over concatenation: what `filter` keeps of a prefix
      does not depend on what follows it. */
  lemma {:induction false} FilterConcat<T(!new)>(p: T -> bool, a: seq<T>, b: seq<T>)
    ensures Filter(p, a + b) == Filter(p, a) + Filter(p, b)
    decreases |a|
  {
    if |a| == 0 {
      assert a + b == b;
    } else {
      assert (a + b)[0] == a[0];
      assert (a + b)[1..] == a[1..] + b;
      FilterConcat(p, a[1..], b);
    }
  }

  /** A filter that keeps every element is the identity. */
  lemma {:induction false} FilterKeepsAll<T(!new)>(p: T -> bool, s: seq<T>)
    requires forall i :: 0 <= i < |s| ==> p(s[i])
    ensures Filter(p, s) == s
    decreases |s|
  {
    if |s| > 0 {
      FilterKeepsAll(p, s[1..]);
      assert [s[0]] + s[1..] == s;
    }
  }

  /** A filter that keeps no element is empty. */
  lemma {:induction false} FilterKeepsNone<T(!new)>(p: T -> bool, s: seq<T>)
    requires forall i :: 0 <= i < |s| ==> !p(s[i])
    ensures Filter(p, s) == []
    decreases |s|
  {
    if |s| > 0 {
      FilterKeepsNone(p, s[1..]);
    }
  }

  /** `Array.prototype.findIndex` for equality: the first position holding `x`, or -1. */
  function FindIndex<T(==)>(s: seq<T>, x: T): (r: int)
    ensures -1 <= r < |s|
    ensures r == -1 <==> x !in s
    ensures 0 <= r ==> s[r] == x && x !in s[..r]
    decreases |s|
  {
    if |s| == 0 then -1
    else if s[0] == x then 0
    else
      var k := FindIndex(s[1..], x);
      if k == -1 then -1
      else
        assert s[1..][..k] == s[1..k + 1];
        assert s[..k + 1] == [s[0]] + s[1..k + 1];
        k + 1
  }

  predicate Sorted(s: seq<int>) {
    forall i, j :: 0 <= i < j < |s| ==> s[i] <= s[j]
  }

  /** Putting a lower bound in front of a sorted sequence keeps it sorted. */
  lemma SortedCons(h: int, t: seq<int>)
    requires Sorted(t)
    requires forall k :: 0 <= k < |t| ==> h <= t[k]
    ensures Sorted([h] + t)
  {
    var r := [h] + t;
    forall i, j | 0 <= i < j < |r|
      ensures r[i] <= r[j]
    {
      assert r[j] == t[j - 1];
      if i > 0 {
        assert r[i] == t[i - 1];
      }
    }
  }

  /** Inserts `x` into an already sorted sequence. */
  function Insert(x: int, s: seq<int>): (r: seq<int>)
    requires Sorted(s)
    ensures Sorted(r)
    ensures forall y :: y in r <==> y == x || y in s
    ensures multiset(r) == multiset(s) + multiset{x}
    decreases |s|
  {
    if |s| == 0 then [x]
    else if x <= s[0] then
      SortedCons(x, s);
      [x] + s
    else
      var t := Insert(x, s[1..]);
      assert s == [s[0]] + s[1..];
      assert forall k :: 0 <= k < |t| ==> t[k] in t;
      SortedCons(s[0], t);
      [s[0]] + t
  }

  /** The numeric ascending sort `[...xs].sort((a, b) => a - b)`: a sorted permutation. */
  function Sort(s: seq<int>): (r: seq<int>)
    ensures Sorted(r)
    ensures multiset(r) == multiset(s)
    decreases |s|
  {
    if |s| == 0 then []
    else
      assert s == [s[0]] + s[1..];
      Insert(s[0], Sort(s[1..]))
  }

  /** The first element of a sorted permutation of `s` is the least element of `s`,
      and the last one is the greatest. */
  lemma SortedEnds(s: seq<int>, r: seq<int>)
    requires Sorted(r) && multiset(r) == multiset(s) && |s| > 0
    ensures |r| == |s|
    ensures r[0] in s && forall x :: x in s ==> r[0] <= x
    ensures r[|r| - 1] in s && forall x :: x in s ==> x <= r[|r| - 1]
  {
    assert |r| == |multiset(r)| == |multiset(s)| == |s|;
    assert r[0] in multiset(r);
    assert r[|r| - 1] in multiset(r);
    forall x | x in s
      ensures r[0] <= x <= r[|r| - 1]
    {
      assert x in multiset(s);
      assert x in multiset(r);
      var k :| 0 <= k < |r| && r[k] == x;
    }
  }
}

=== FILE: text.dfy ===
/** String helpers standing in for `String.prototype.toLowerCase`, `includes` and `trim`. */
module Text {

  /** Lower-cases one character: ASCII `A`–`Z`, Cyrillic `А`–`Я` and `Ё`; everything else
      is left as it is. */
  function LowerChar(c: char): char {
    if 'A' <= c <= 'Z' then (c as int + 32) as char
    else if '\U{0410}' <= c <= '\U{042F}' then (c as int + 32) as char
    else if c == '\U{0401}' then '\U{0451}'
    else c
  }

  /** `s.toLowerCase()`, character by character. */
  function Lower(s: string): (r: string)
    ensures |r| == |s|
    ensures forall i :: 0 <= i < |s| ==> r[i] == LowerChar(s[i])
  {
    seq(|s|, i requires 0 <= i < |s| => LowerChar(s[i]))
  }

  /** `needle` occurs in `hay` starting at position `i`. */
  ghost predicate OccursAt(hay: string, needle: string, i: int) {
    0 <= i && i + |needle| <= |hay| && hay[i..i + |needle|] == needle
  }

  /** An occurrence at position `i >= 1` of `hay` is an occurrence at `i - 1` of `hay[1..]`. */
  lemma ShiftOccurrence(hay: string, needle: string, i: int)
    requires |hay| > 0 && i >= 1
    ensures OccursAt(hay, needle, i) <==> OccursAt(hay[1..], needle, i - 1)
  {
    if i + |needle| <= |hay| {
      assert hay[1..][i - 1..i - 1 + |needle|] == hay[i..i + |needle|];
    }
  }

  /** When `needle` is not a prefix of `hay`, it occurs in `hay` iff it occurs in `hay[1..]`. */
  lemma IncludesStep(hay: string, needle: string)
    requires |needle| <= |hay| && hay[..|needle|] != needle
    ensures (exists i :: OccursAt(hay, needle, i)) <==> (exists j :: OccursAt(hay[1..], needle, j))
  {
    forall i | OccursAt(hay, needle, i)
      ensures OccursAt(hay[1..], needle, i - 1)
    {
      assert i != 0;
      ShiftOccurrence(hay, needle, i);
    }
    forall j | OccursAt(hay[1..], needle, j)
      ensures OccursAt(hay, needle, j + 1)
    {
      ShiftOccurrence(hay, needle, j + 1);
    }
  }

  /** `hay.includes(needle)`: some window of `hay` equals `needle`. */
  function Includes(hay: string, needle: string): (r: bool)
    ensures r <==> exists i :: OccursAt(hay, needle, i)
    decreases |hay|
  {
    if |needle| > |hay| then
      false
    else if hay[..|needle|] == needle then
      assert OccursAt(hay, needle, 0);
      true
    else
      IncludesStep(hay, needle);
      Includes(hay[1..], needle)
  }

  /** The white space and line terminators that `String.prototype.trim` removes. */
  predicate IsWhitespace(c: char) {
    || c == '\t' || c == '\n' || c == '\U{000B}' || c == '\U{000C}' || c == '\r' || c == ' '
    || c == '\U{00A0}' || c == '\U{1680}' || ('\U{2000}' <= c <= '\U{200A}')
    || c == '\U{2028}' || c == '\U{2029}' || c == '\U{202F}' || c == '\U{205F}'
    || c == '\U{3000}' || c == '\U{FEFF}'
  }

  /** Every character of `s` is white space. */
  predicate AllWhitespace(s: string) {
    forall i :: 0 <= i < |s| ==> IsWhitespace(s[i])
  }

  /** `s.trimStart()`: a suffix of `s` that does not begin with white space. */
  function TrimStart(s: string): (r: string)
    ensures |r| <= |s| && r == s[|s| - |r|..]
    ensures |r| > 0 ==> !IsWhitespace(r[0])
    ensures AllWhitespace(s[..|s| - |r|])
    decreases |s|
  {
    if |s| > 0 && IsWhitespace(s[0]) then TrimStart(s[1..]) else s
  }

  /** `s.trimEnd()`: a prefix of `s` that does not end with white space. */
  function TrimEnd(s: string): (r: string)
    ensures |r| <= |s| && r == s[..|r|]
    ensures |r| > 0 ==> !IsWhitespace(r[|r| - 1])
    ensures AllWhitespace(s[|r|..])
    decreases |s|
  {
    if |s| > 0 && IsWhitespace(s[|s| - 1]) then TrimEnd(s[..|s| - 1]) else s
  }

  /** `s.trim()`: the slice of `s` left after removing white space from both ends; it has
      no white space at either end. */
  function Trim(s: string): (r: string)
    ensures |r| <= |s|
    ensures |r| > 0 ==> !IsWhitespace(r[0]) && !IsWhitespace(r[|r| - 1])
    ensures exists k :: TrimmedAt(r, s, k)
  {
    var a := TrimStart(s);
    var r := TrimEnd(a);
    TrimBothEnds(s, a, r);
    r
  }

  /** Removing white space from the front of `s` (leaving `a`) and then from the back of
      `a` (leaving `r`) leaves the piece of `s` at `|s| - |a|` with only white space around
      it. */
  lemma TrimBothEnds(s: string, a: string, r: string)
    requires |a| <= |s| && a == s[|s| - |a|..] && AllWhitespace(s[..|s| - |a|])
    requires |r| <= |a| && r == a[..|r|] && AllWhitespace(a[|r|..])
    ensures TrimmedAt(r, s, |s| - |a|)
  {
    var k := |s| - |a|;
    assert a[|r|..] == s[k + |r|..];
  }

  /** `r` is the piece of `s` starting at position `k`. */
  ghost predicate InfixAt(r: string, s: string, k: int) {
    0 <= k <= |s| - |r| && r == s[k..k + |r|]
  }

  /** `r` is the piece of `s` at position `k`, and everything of `s` before and after it is
      white space. */
  ghost predicate TrimmedAt(r: string, s: string, k: int) {
    && InfixAt(r, s, k)
    && AllWhitespace(s[..k])
    && AllWhitespace(s[k + |r|..])
  }

  lemma {:induction false} TrimStartEmptyIffBlank(s: string)
    ensures TrimStart(s) == [] <==> AllWhitespace(s)
    decreases |s|
  {
    if |s| > 0 && IsWhitespace(s[0]) {
      TrimStartEmptyIffBlank(s[1..]);
      assert AllWhitespace(s) <==> AllWhitespace(s[1..]) by {
        if AllWhitespace(s[1..]) {
          forall i | 0 <= i < |s|
            ensures IsWhitespace(s[i])
          {
            if i > 0 {
              assert s[i] == s[1..][i - 1];
            }
          }
        }
      }
    } else if |s| > 0 {
      assert !IsWhitespace(s[0]);
    }
  }

  lemma {:induction false} TrimEndEmptyIffBlank(s: string)
    ensures TrimEnd(s) == [] <==> AllWhitespace(s)
    decreases |s|
  {
    if |s| > 0 && IsWhitespace(s[|s| - 1]) {
      var p := s[..|s| - 1];
      TrimEndEmptyIffBlank(p);
      assert AllWhitespace(s) <==> AllWhitespace(p) by {
        if AllWhitespace(p) {
          forall i | 0 <= i < |s|
            ensures IsWhitespace(s[i])
          {
            if i < |s| - 1 {
              assert s[i] == p[i];
            }
          }
        }
      }
    } else if |s| > 0 {
      assert !IsWhitespace(s[|s| - 1]);
    }
  }

  /** `s.trim()` is empty (falsy in JavaScript) exactly when every character of `s` is
      white space. */
  lemma TrimEmptyIffBlank(s: string)
    ensures Trim(s) == [] <==> AllWhitespace(s)
  {
    var a := TrimStart(s);
    TrimStartEmptyIffBlank(s);
    TrimEndEmptyIffBlank(a);
    if |a| > 0 {
      assert !AllWhitespace(a) by { assert !IsWhitespace(a[0]); }
      assert !AllWhitespace(s) by { assert a[0] == s[|s| - |a|]; }
    }
  }

  /** Case-insensitive containment, `text.toLowerCase().includes(query.toLowerCase())`. */
  function MatchesIgnoringCase(text: string, query: string): (r: bool)
    ensures r <==> exists i :: OccursAt(Lower(text), Lower(query), i)
    ensures query == "" ==> r
    ensures |query| > |text| ==> !r
  {
    assert OccursAt(Lower(text), Lower(query), 0) <== query == "";
    Includes(Lower(text), Lower(query))
  }
}

=== FILE: types.dfy ===
/** The records shared by every part of the calendar: employees, reserved time slots and
    their statuses. Calendar days are whole numbers (day numbers), so a date axis is a
    sequence of integers. */
module Types {
  import Seqs

  type Day = int

  datatype Employee = Employee(id: string, name: string, activityType: seq<string>)

  datatype TimeSlotStatus = Active | Pending | Completed

  /** The statuses the reservation form lets a user pick: `'active' | 'pending'`. */
  type FormStatus = s: TimeSlotStatus | s != Completed witness Active

  /** A reservation of one employee over the inclusive day range `startDate..endDate`. */
  datatype TimeSlot = TimeSlot(
    id: string,
    employeeId: string,
    projectName: string,
    startDate: Day,
    endDate: Day,
    status: TimeSlotStatus)

  /** A drag selection: the row it belongs to and the column indexes touched so far, in
      the order they were touched. */
  datatype Selection = Selection(employeeId: string, dateIndexes: seq<int>)

  /** A date axis: one distinct day per column, in ascending order. */
  predicate StrictlyIncreasing(dates: seq<Day>) {
    forall i, j :: 0 <= i < j < |dates| ==> dates[i] < dates[j]
  }

  /** The test `slot.employeeId === employeeId`. */
  function OwnedBy(employeeId: string): TimeSlot -> bool {
    (t: TimeSlot) => t.employeeId == employeeId
  }

  /** The slots of one employee, in their original order. */
  function SlotsOf(slots: seq<TimeSlot>, employeeId: string): (r: seq<TimeSlot>)
    ensures Seqs.IsSubsequence(r, slots)
    ensures forall t :: t in r <==> t in slots && t.employeeId == employeeId
    ensures forall t :: multiset(r)[t] == if t.employeeId == employeeId then multiset(slots)[t] else 0
  {
    Seqs.FilterIsSubsequence(OwnedBy(employeeId), slots);
    Seqs.Filter(OwnedBy(employeeId), slots)
  }

  /** An employee with no slot has an empty slot list. */
  lemma NoSlotsOf(slots: seq<TimeSlot>, employeeId: string)
    requires forall t :: t in slots ==> t.employeeId != employeeId
    ensures SlotsOf(slots, employeeId) == []
  {
    Seqs.FilterKeepsNone(OwnedBy(employeeId), slots);
  }

  /** A single slot's own list is itself. */
  lemma SlotsOfSingleton(t: TimeSlot)
    ensures SlotsOf([t], t.employeeId) == [t]
  {
    assert [t][1..] == [];
  }

  /** Appending a slot extends only its own employee's list, by that slot. */
  lemma SlotsOfSnoc(slots: seq<TimeSlot>, t: TimeSlot, employeeId: string)
    ensures SlotsOf(slots + [t], employeeId) ==
      if t.employeeId == employeeId then SlotsOf(slots, employeeId) + [t] else SlotsOf(slots, employeeId)
  {
    Seqs.FilterConcat(OwnedBy(employeeId), slots, [t]);
    if t.employeeId == employeeId {
      SlotsOfSingleton(t);
    } else {
      NoSlotsOf([t], employeeId);
    }
  }
}

=== FILE: wrappers.dfy ===
/** The absent-or-present value used wherever the source has `T | null` or may read `undefined`. */
module Wrappers {

  datatype Option<+T> = None | Some(value: T)
}
